=== FILE: README.md ===
# Portfolio ledger and price-refresh gate of a simulated stock exchange

This project models, in Dafny, the business core of a small stock-trading web
application. A user holds a portfolio. The portfolio has a cash balance,
at most one position per stock, and two append-only histories: executed
orders and cash operations. The user buys and sells tracked stocks at
prices taken from an external market-data source, deposits and withdraws
cash, and sees the portfolio valued.

The model covers:

- **Stored records** (`Models`, `models.dfy`): Stock, Portfolio, Position,
  Transaction and CashOperation as immutable datatypes. The catalog is a map
  keyed by the unique symbol. Positions are a map keyed by symbol, since
  there is at most one per (portfolio, stock). A stock's price is
  `Option<real>` (nullable). A new portfolio opens with 10000.
- **Forms** (`Forms`, `forms.dfy`, with `Text`, `text.dfy`): the order form
  and the cash form as cleaning functions that return the cleaned request or
  every field error. Text fields are stripped of surrounding whitespace
  before they are checked, and a NUL character in them is an error.
- **Market-data services** (`Services`, `services.dfy`):
  - the price fetch as an oracle `Quote -> Option<real>` that never raises;
  - the catalog-wide sweep, which writes only the price column;
  - the one-minute refresh gate and the Max aggregate it reads.
- **Ledger** (`Ledger`, `ledger.dfy`):
  - order placement: pricing, then BUY or SELL settlement;
  - deposits and withdrawals.

  Each request is one step that returns the new portfolio or a typed
  rejection. Order placement also returns the catalog, because a fetched
  price is saved before the order is checked.
- **Valuation** (`Valuation`, `valuation.dfy`): the effective-price fallback
  chain, the per-position row, and the totals. The totals are sums over
  the set of held symbols (`Sums`, `sums.dfy`), so they do not depend on the
  order in which positions are visited.
- **Properties**:
  - `ledger_facts.dfy`: cost-basis blending and order splitting; buy/sell
    and deposit/withdraw round trips; cash and share reconciliation against
    the histories; preservation of well-formedness; symbol case handling;
    how orders interact with the refresh gate.
  - `valuation_facts.dfy`: trading at the market price conserves total
    value; a BUY at the market price leaves unrealised gain unchanged; a
    SELL realises exactly (price − average) × shares.

Money is exact `real`: cash, prices and average cost. Time is an integer
count of microseconds. The fetch answer, the request time and the sweep's
start time are parameters.

Notes on the code as written:

- **Symbol lookup.** The handler upper-cases the stripped symbol and then
  looks it up with an exact match. Under a case-sensitive database
  collation (the default of SQLite and PostgreSQL), a stock stored with a
  lower-case letter can never be traded (`LedgerFacts.LowerCaseStockUnreachable`).
  Under a case-insensitive collation (MySQL's default) it could be. The
  database settings are not part of this model, and the model takes the
  exact match.
- **Smallest cash amount.** The cash form's lower bound is written as the
  float `0.01`. The typed decimal is compared with that float exactly, and
  the float lies just above one cent. So an amount of 0.01 is refused and
  the smallest amount accepted is 0.02 (`Forms.SmallestAmount`,
  `Forms.OneCentIsBelowMinimum`).
- **Sweep timestamps.** The sweep saves with `update_fields=["last_price"]`,
  so the stock's auto-updated timestamp is not written, although the
  docstring at atlasbourse_app/atlasbourse_app/market/services.py:36 says
  it is. A sweep therefore never shuts the gate:
  a catalog that was stale stays stale at every later time
  (`Services.SweepKeepsGateOpen`). Only an order's full save of a stock
  stamps it (`LedgerFacts.OrderFetchClosesGate`).
- **Gain percentage.** The code computes it per share,
  (price − average) / average × 100. This equals gain / (average × shares)
  × 100 whenever at least one share is held (`Valuation.RowArithmetic`).
- **Atomicity.** Settlement is not wrapped in a database transaction. The
  model treats each request as one atomic step.

## Model

| member | source | states |
|---|---|---|
| `Text.Upper` | atlasbourse_app/market/views.py:158 | the looked-up symbol has the typed symbol's length, each ASCII letter upper-cased, and no lower-case ASCII letter left |
| `Text.StripUnique` | atlasbourse_app/market/forms.py:25 | stripping a string made of whitespace, a middle that neither starts nor ends with whitespace, and more whitespace gives exactly that middle; whitespace is what Python's `str.isspace` accepts |
| `Text.StripShape` | atlasbourse_app/market/forms.py:25 | the stripped text neither starts nor ends with whitespace, and everything removed on either side is whitespace |
| `Text.StripIdempotent` | atlasbourse_app/market/forms.py:25 | stripping an already stripped field changes nothing |
| `Text.StripBlank` | atlasbourse_app/market/forms.py:25 | a field strips to nothing exactly when it is all whitespace |
| `Text.StripUpperCommute` | atlasbourse_app/market/views.py:158 | upper-casing the stripped symbol is the same as stripping the upper-cased one |
| `Text.UpperIdempotent` | atlasbourse_app/market/views.py:158 | upper-casing an already upper-cased symbol changes nothing |
| `Models.NewStock` | atlasbourse_app/atlasbourse_app/market/models.py:5-10 | a new stock has no price and the default currency USD |
| `Models.NewStockFitsCatalog` | atlasbourse_app/atlasbourse_app/market/models.py:5-10 | a new stock, stored under its own symbol, keeps the catalog keyed by symbol with non-negative prices and carries its creation time |
| `Models.ParseTransactionType` | atlasbourse_app/market/forms.py:5-8 | exactly the codes BUY and SELL are order types, and each parses back to its own code |
| `Models.ParseCashOperationType` | atlasbourse_app/market/forms.py:37-40 | exactly the codes IN and OUT are cash-operation types, and each parses back to its own code |
| `Models.TypeCodesRoundTrip` | atlasbourse_app/atlasbourse_app/market/models.py:37-47 | every stored type code fits its 4- or 3-character column and parses back to the same type |
| `Models.NewPortfolio` | atlasbourse_app/atlasbourse_app/market/models.py:16-18 | a new portfolio holds 10000 in cash, no positions and no history, and is well-formed |
| `Forms.OrderFormErrors` | atlasbourse_app/market/forms.py:24-27 | an order form has no errors exactly when the stripped symbol has 1 to 10 characters, the symbol holds no NUL character, the type is BUY or SELL and the quantity is at least 1 |
| `Forms.BlankSymbolIsMissing` | atlasbourse_app/market/forms.py:25 | the symbol is reported missing exactly when it is empty or all whitespace |
| `Forms.NulSurvivesStrip` | atlasbourse_app/market/forms.py:25 | a NUL character is in the stripped field exactly when it was typed |
| `Forms.CleanOrder` | atlasbourse_app/market/forms.py:24-27 | a valid form yields an order with the stripped symbol and the typed type and quantity; an invalid one yields all its (non-empty) errors |
| `Forms.OrderFormErrorsIgnoreCase` | atlasbourse_app/market/forms.py:24-27 | typing the symbol in upper case changes none of the order form's errors, valid or not |
| `Forms.CleanOrderUpper` | atlasbourse_app/market/forms.py:24-27 | typing a valid order's symbol in upper case cleans to the same order with an upper-cased symbol |
| `Forms.CashFormErrors` | atlasbourse_app/market/forms.py:42-45 | a cash form has no errors exactly when the type is IN or OUT, the amount has at most two decimals and lies from 0.02 up to but excluding 10^10, and the note holds no NUL character; the note may be blank; an amount of at most 0.01 is always below the minimum |
| `Forms.DigitErrors` | atlasbourse_app/market/forms.py:44 | the amount's digit checks report at most one error: too many digits in all, else too many decimal places, else too many digits before the point; none exactly when the amount is a whole number of cents strictly between −10^10 and 10^10 |
| `Forms.ThirteenDigitsReportedOnce` | atlasbourse_app/market/forms.py:44 | 9999999999.999 (thirteen digits, three decimal places) is refused for its digit count alone |
| `Forms.FourteenDigitsReportedOnce` | atlasbourse_app/market/forms.py:44 | 10000000000.001 (eleven whole digits, three decimal places) is refused for its digit count alone |
| `Forms.ThreeDecimalPlacesReported` | atlasbourse_app/market/forms.py:44 | 1.005 is refused for its decimal places alone |
| `Forms.ElevenWholeDigitsReported` | atlasbourse_app/market/forms.py:44 | 12345678901.5 (twelve digits, one decimal place) is refused for its digits before the point alone |
| `Forms.SmallestAmount` | atlasbourse_app/market/forms.py:44 | a whole number of cents clears the float lower bound exactly when it is at least 0.02 |
| `Forms.OneCentIsBelowMinimum` | atlasbourse_app/market/forms.py:44 | a deposit of 0.01 is refused, with a below-minimum error on the amount and nothing else |
| `Forms.TwoCentsAccepted` | atlasbourse_app/market/forms.py:42-45 | a withdrawal of 0.02 with an empty note is accepted as it was typed |
| `Forms.CleanCashOperation` | atlasbourse_app/market/forms.py:36-45 | a valid form yields a request carrying the typed amount and type and the stripped note; an invalid one yields all its (non-empty) errors |
| `Services.FetchStockPrice` | atlasbourse_app/atlasbourse_app/market/services.py:12-26 | the fetch gives no price exactly when the library raised or returned an empty history, otherwise the last close; this is the interface of the market-data oracle that order pricing and the sweep consume, not a property of its own |
| `Services.ShouldRefresh` | atlasbourse_app/atlasbourse_app/market/services.py:60 | the gate fires when there is no timestamp at all or more than one full minute has passed since the newest one |
| `Services.ShouldRefreshIffStale` | atlasbourse_app/atlasbourse_app/market/services.py:55-60 | on the Max of the timestamps, the gate fires exactly when every stock was saved more than one minute before now (always for an empty catalog) |
| `Services.GateIsStrict` | atlasbourse_app/atlasbourse_app/market/services.py:60 | a timestamp exactly one minute old keeps the gate shut; one microsecond older, or none at all, opens it |
| `Services.LatestUpdate` | atlasbourse_app/atlasbourse_app/market/services.py:58 | the aggregate is absent for an empty catalog, otherwise a stock's timestamp that no other stock's exceeds |
| `Services.WithSweptPrice` | atlasbourse_app/atlasbourse_app/market/services.py:41-44 | a swept stock gets exactly the fetched price when there is one and is otherwise untouched; symbol, name, currency and timestamp never change |
| `Services.SweptCatalog` | atlasbourse_app/atlasbourse_app/market/services.py:40-44 | after a sweep every stock keeps its symbol, name, currency and timestamp, takes the fetched price when there is one, and is otherwise unchanged |
| `Services.UpdateAllStockPrices` | atlasbourse_app/atlasbourse_app/market/services.py:33-46 | the sweep keeps the set of stocks, rewrites every stock as its fetch dictates, and returns the time it started |
| `Services.AutoUpdatePricesIfNeeded` | atlasbourse_app/atlasbourse_app/market/services.py:49-66 | it sweeps exactly when the catalog is stale, returning (true, sweep start time); otherwise it returns (false, the newest timestamp, at most one minute old) with the catalog unchanged |
| `Services.SweepKeepsGateOpen` | atlasbourse_app/atlasbourse_app/market/services.py:44 | because the sweep writes only the price, a catalog stale at now is still stale at every later time |
| `Services.SweepIdempotent` | atlasbourse_app/atlasbourse_app/market/services.py:40-44 | sweeping twice with the same answers is sweeping once |
| `Services.SweepPreservesCatalog` | atlasbourse_app/atlasbourse_app/market/services.py:40-44 | the sweep keeps the catalog keyed by symbol and, with non-negative answers, its prices non-negative |
| `Ledger.Blend` | atlasbourse_app/market/views.py:194-205 | the new position holds the old shares plus the bought ones, and its average times its shares is the old cost plus price times quantity |
| `Ledger.ExecuteBuy` | atlasbourse_app/market/views.py:186-213 | refused (insufficient funds) exactly when cash < price × quantity; otherwise cash falls by exactly that, the symbol's position is created at (quantity, price) or blended, no other position changes, and one BUY record is appended |
| `Ledger.ExecuteSell` | atlasbourse_app/market/views.py:215-242 | refused with no-holding when nothing is held and with insufficient-quantity when too few shares are held; otherwise cash rises by price × quantity, shares fall by quantity, the position disappears exactly when none are left and otherwise keeps its average, and one SELL record is appended |
| `Ledger.PriceOrder` | atlasbourse_app/market/views.py:162-183 | an unknown symbol is refused with the catalog untouched; a fetched price is saved on the stock and stamps it; without one the stored price is used, and with neither the order is refused; the price used is the stock's stored price afterwards |
| `Ledger.Execute` | atlasbourse_app/market/views.py:184-242 | settlement is refused exactly when a BUY's price × quantity exceeds the cash, or a SELL's symbol is not held or holds fewer shares than ordered; a settled order appends its record, moves cash by exactly that record's cash flow, adds the shares to the traded position on a BUY and removes them on a SELL, and touches no other position |
| `Ledger.PlaceOrder` | atlasbourse_app/market/views.py:152-244 | an invalid form changes nothing; only the ordered stock can change in the catalog; a successful order appends one record with the typed type and quantity, the stripped, upper-cased symbol and the stock's current price, moves cash by that record's flow, raises the traded holding by the quantity on a BUY and lowers it by the quantity on a SELL, and leaves every other position as it was; the refusals of a valid form are stated by `LedgerFacts.PlaceOrderPricing` and `LedgerFacts.PlaceOrderSettlement` |
| `Ledger.Deposit` | atlasbourse_app/market/views.py:341-350 | cash rises by the amount, one IN record is appended, nothing else changes |
| `Ledger.Withdraw` | atlasbourse_app/market/views.py:351-364 | refused exactly when cash < amount (all of the cash may be taken out); otherwise cash falls by the amount and one OUT record is appended |
| `Ledger.PerformCashOperation` | atlasbourse_app/market/views.py:331-366 | refused exactly for an invalid form or an uncovered withdrawal; otherwise one record with the typed type and amount and the stripped note is appended and cash moves by its flow |
| `Valuation.RowFor` | atlasbourse_app/market/views.py:80-97 | a row carries the position's symbol, shares and average cost and is priced at the effective price |
| `Valuation.EffectivePrice` | atlasbourse_app/market/views.py:85-86 | a present, non-zero last price is used; otherwise the average cost (the final fallback to zero coincides with it) |
| `Valuation.RowArithmetic` | atlasbourse_app/market/views.py:88-97 | a row is worth effective price × shares, splits into cost basis plus gain, and its percentage is the gain over the cost basis (zero when the average is not positive) |
| `Valuation.ComputePortfolioTotals` | atlasbourse_app/market/views.py:70-102 | one row per position, each once; the totals are the sums of value and gain over all held symbols, plus the cash for the total value |
| `LedgerFacts.BuyAtAverageKeepsAverage` | atlasbourse_app/market/views.py:199-204 | buying at the position's own average leaves the average unchanged |
| `LedgerFacts.BlendTwice` | atlasbourse_app/market/views.py:200-204 | blending q1 then q2 shares at one price equals blending q1 + q2 at once |
| `LedgerFacts.SplitBuyMatchesSingleBuy` | atlasbourse_app/market/views.py:186-205 | at a non-negative price, if a BUY of q1 + q2 goes through, its two halves at the same price both go through and end in the same cash and positions |
| `LedgerFacts.BuyThenSellRestores` | atlasbourse_app/market/views.py:186-242 | opening a position and selling it all at the same price restores cash and positions and leaves two records |
| `LedgerFacts.DepositThenWithdrawRestores` | atlasbourse_app/market/views.py:341-363 | from a non-negative balance, withdrawing what was just deposited always succeeds and restores the balance |
| `LedgerFacts.NewPortfolioReconciled` | atlasbourse_app/atlasbourse_app/market/models.py:18 | a new portfolio's cash is the opening 10000 and it holds what its (empty) history bought |
| `LedgerFacts.ExecuteKeepsReconciled` | atlasbourse_app/market/views.py:191-241 | after settlement, cash is still the opening cash plus all recorded flows and every holding is still bought-minus-sold |
| `LedgerFacts.ExecuteKeepsSharesReconciled` | atlasbourse_app/market/views.py:194-241 | after settlement every holding equals the shares bought minus the shares sold in the transaction history |
| `LedgerFacts.PlaceOrderKeepsReconciled` | atlasbourse_app/market/views.py:152-244 | order requests keep cash and holdings reconciled with the histories |
| `LedgerFacts.CashOperationKeepsReconciled` | atlasbourse_app/market/views.py:331-366 | cash requests keep cash and holdings reconciled with the histories |
| `LedgerFacts.BlendNonNegative` | atlasbourse_app/market/views.py:200-203 | blending non-negative costs gives a non-negative average |
| `LedgerFacts.BuyPreservesValid` | atlasbourse_app/market/views.py:187-205 | a BUY never takes cash below zero and stores positions of at least one share |
| `LedgerFacts.SellPreservesValid` | atlasbourse_app/market/views.py:222-233 | a SELL never leaves a zero-share position and keeps cash non-negative |
| `LedgerFacts.ExecutePreservesValid` | atlasbourse_app/market/views.py:184-242 | settlement keeps the portfolio well-formed and adds no position but the traded one |
| `LedgerFacts.ExecuteKeepsCounts` | atlasbourse_app/market/views.py:186-241 | at any price, settlement stores no position under one share, records a positive quantity, adds no position but the traded one, and a BUY leaves cash ≥ 0 |
| `LedgerFacts.PlaceOrderKeepsCounts` | atlasbourse_app/market/views.py:152-244 | at any market-data answer, order requests keep every position at one share or more and in the catalog, every record's quantity positive, and cash ≥ 0 after a BUY |
| `LedgerFacts.PlaceOrderPreservesValid` | atlasbourse_app/market/views.py:152-244 | with non-negative prices, order requests keep catalog and portfolio well-formed: cash ≥ 0, every position ≥ 1 share, positions refer to catalog stocks |
| `LedgerFacts.CashOperationPreservesValid` | atlasbourse_app/market/views.py:352-357 | cash requests keep cash non-negative |
| `LedgerFacts.PlaceOrderIgnoresCase` | atlasbourse_app/market/views.py:158-163 | every order, valid or not, behaves identically whether its symbol is typed in lower or upper case |
| `LedgerFacts.LowerCaseStockUnreachable` | atlasbourse_app/market/views.py:158-166 | a catalog stock whose symbol holds a lower-case letter is never repriced or traded by any order |
| `LedgerFacts.FetchedPriceKeptOnRejection` | atlasbourse_app/market/views.py:168-189 | a fetched price stays saved on the stock even when the order is then refused for funds or holdings |
| `LedgerFacts.PricedBuyRefusal` | atlasbourse_app/market/views.py:183-189 | once a stock has a stored price, pricing returns it and a BUY at it is refused exactly when cash < price × quantity |
| `LedgerFacts.PlaceOrderPricing` | atlasbourse_app/market/views.py:158-181 | for a valid form: an unknown symbol is refused with nothing changed; a fetched price is saved on the ordered stock and stamps it with the request time; without a fetched price the catalog is unchanged; with no price at all the order is refused for want of a price |
| `LedgerFacts.PlaceOrderSettlement` | atlasbourse_app/market/views.py:183-224 | for a valid form on a priced stock: a BUY is refused exactly when cash < price × quantity, and a SELL exactly when the symbol is not held or fewer shares are held than ordered |
| `LedgerFacts.PlaceOrderBuyRefusal` | atlasbourse_app/market/views.py:183-189 | a valid BUY for a priced stock is refused exactly when cash < stored price × quantity |
| `LedgerFacts.OrderFetchClosesGate` | atlasbourse_app/market/views.py:170-171 | after an order whose fetch succeeded, the gate stays shut for one minute |
| `LedgerFacts.WorkedHistory` | atlasbourse_app/market/views.py:186-242 | 10000; buy 10 at 50 → 9500; buy 10 at 70 → 8800 with 20 shares at 60; sell 20 at 80 → 10400 and no position |
| `LedgerFacts.WithdrawalBoundary` | atlasbourse_app/market/views.py:352-356 | withdrawing a cent more than the balance is refused; withdrawing all of it leaves zero |
| `ValuationFacts.NoMarketPriceNoGain` | atlasbourse_app/market/views.py:85-97 | without a usable market price a position is valued at cost with zero gain and zero percentage |
| `ValuationFacts.NewPortfolioWorth` | atlasbourse_app/market/views.py:101 | a new portfolio is worth 10000 with no gain |
| `ValuationFacts.BuyAtMarketKeepsTotals` | atlasbourse_app/market/views.py:191-205 | buying at the stock's current non-zero price leaves total value and total gain unchanged |
| `ValuationFacts.SellAtMarketKeepsValue` | atlasbourse_app/market/views.py:226-233 | selling at the current non-zero price leaves total value unchanged and lowers total gain by (price − average) × shares sold |
| `ValuationFacts.PlaceOrderKeepsTotalValue` | atlasbourse_app/market/views.py:183-242 | a successful order at a non-zero price leaves total value, at the prices it leaves behind, unchanged |
| `ValuationFacts.CashOperationMovesTotalValue` | atlasbourse_app/market/views.py:341-357 | a cash request moves total value by exactly its cash flow |

## Left out

- Authentication, registration, login and logout views, dashboard rendering, the chart data and its float conversion, the transaction list and flash messages: presentation and framework plumbing.
- The stock-list page's search, currency filter and top-five list: database queries for display.
- Lazy creation of a portfolio on first access: the model starts from `Models.NewPortfolio`.
- Services.FetchStockPrice: does not round the last close to two decimals through a float, because the market-data library and float rounding are outside the model; the oracle's close is taken as the price.
- Ledger.PlaceOrder: the market-data answer is an oracle, a function of the symbol. Its time-varying, networked nature is not modelled.
- Decimal quantisation: `avg_price` and cash are stored with two decimals, and the model keeps exact values. The blend's division is not rounded.
- Ledger.Deposit, Ledger.ExecuteBuy, Ledger.ExecuteSell: column capacities are not modelled. Cash holds 12 digits, 2 after the point (atlasbourse_app/atlasbourse_app/market/models.py:18). Prices and average cost hold 10 digits (models.py:8, 28 and 49). Quantities are positive integers, 32-bit on most databases (models.py:27 and 48). A database that enforces precision, such as PostgreSQL, refuses a save that exceeds them. The model's cash, prices and quantities are unbounded, so such a request succeeds here. Example: one deposit of 9999999999.99 into a new portfolio gives 13 digits of cash, so the save at views.py:343 fails. Likewise, a BUY whose new share count or average cost overflows its column fails at views.py:194-205, after the cash debit was already saved at views.py:191-192.
- Atomicity and concurrent requests: each request is one atomic step, and interleavings are not modelled.
- Parsing of the submitted strings into numbers, and the wording of error messages: the forms take the quantity and amount as numbers.
- Forms.CashFormErrors: the amount is an exact number, not the typed decimal, so an amount typed with trailing zeros beyond two decimals (such as "5.100") is accepted here, while Django's digit check counts those zeros and refuses it. The digit checks of `Forms.DigitErrors` count the digits the exact value needs.
- Forms.CleanCashOperation: inherits that gap from Forms.CashFormErrors for amounts typed with trailing zeros.
- Text.Upper: only the ASCII letters are upper-cased. Python's `str.upper` maps every cased character ('é' to 'É') and may change the length ('ß' to 'SS'); symbols outside ASCII are not modelled.
- Length limits on stock name (100) and currency (10): no operation of the core writes those fields.
- Ledger.PerformCashOperation: the note's column limit is not modelled. The cash form's note has no length limit (forms.py:45), but the stored note holds at most 255 characters (models.py:67). Requests are not wrapped in a database transaction. So on a database that enforces the length, such as PostgreSQL, a request with a longer note first saves the new cash (views.py:343 for a deposit, views.py:357 for a withdrawal). The record's creation then fails (views.py:344, views.py:358). Cash has moved with no record, which breaks the reconciliation that `LedgerFacts.CashOperationKeepsReconciled` states within the model. The model accepts any note and always appends the record.
- LedgerFacts.CashOperationKeepsReconciled: on such a database the reconciliation holds only for notes of at most 255 characters, for the reason given under Ledger.PerformCashOperation.
- Stock creation or editing through the admin, and cascade deletion of stocks and portfolios. No operation of the core changes the set of stocks.
- LedgerFacts.PlaceOrderPreservesValid: requires non-negative stored prices and market-data answers. The schema accepts negative prices, and the code does not check for them. Only two parts of the lemma need the requirement: average cost ≥ 0, and cash ≥ 0 after a SELL. The price-free parts are proved without it by LedgerFacts.PlaceOrderKeepsCounts: positions of at least one share, positions in the catalog, positive record quantities, and cash ≥ 0 after a BUY.
- LedgerFacts.ExecutePreservesValid: requires a non-negative price for the same two parts. The rest holds at any price, by LedgerFacts.ExecuteKeepsCounts.
- LedgerFacts.BuyPreservesValid: requires a non-negative price only for average cost ≥ 0. Cash ≥ 0 and at least one share hold at any price, by LedgerFacts.ExecuteKeepsCounts.
- LedgerFacts.SellPreservesValid: requires a non-negative price only for cash ≥ 0. At least one share per position holds at any price, by LedgerFacts.ExecuteKeepsCounts.
- `Transaction`/`CashOperation` creation times: modelled as the request time `now`.
- `Stock.updated_at` on an order's full save: modelled as the request time `now`.

=== FILE: decimals.dfy ===
/** Decimal digits of exact numbers: powers of ten, digit counts and
    how many decimal places a number needs. */
module Decimals {
  function Pow10(k: nat): (r: nat)
    ensures r >= 1
  {
    if k == 0 then 1 else 10 * Pow10(k - 1)
  }

  /** The number of decimal digits of `n`; zero has none before the point. */
  function DigitCount(n: nat): nat {
    if n == 0 then 0 else 1 + DigitCount(n / 10)
  }

  /** `n` fits in `k` digits exactly when it is below 10^k. */
  lemma {:induction false} DigitCountBound(n: nat, k: nat)
    ensures DigitCount(n) <= k <==> n < Pow10(k)
  {
    if k > 0 && n > 0 {
      DigitCountBound(n / 10, k - 1);
      assert n == 10 * (n / 10) + n % 10;
    }
  }

  /** Digits before the point of `x`, sign ignored. */
  function WholeDigits(x: real): nat {
    DigitCount((if x < 0.0 then -x else x).Floor as nat)
  }

  predicate Whole(y: real) {
    y.Floor as real == y
  }

  /** `x` is a whole number of 10^-d: it needs at most `d` decimal places. */
  predicate DecimalsAtMost(x: real, d: nat)
    decreases d
  {
    if d == 0 then Whole(x) else DecimalsAtMost(10.0 * x, d - 1)
  }

  /** Ten times a whole number is whole. */
  lemma TenfoldWhole(y: real)
    requires Whole(y)
    ensures Whole(10.0 * y)
  {
    assert 10.0 * y == (10 * y.Floor) as real;
  }

  /** Allowing more decimal places never refuses a number allowed fewer. */
  lemma {:induction false} DecimalsAtMostGrows(x: real, d: nat, e: nat)
    requires d <= e && DecimalsAtMost(x, d)
    ensures DecimalsAtMost(x, e)
    decreases e
  {
    if d > 0 {
      DecimalsAtMostGrows(10.0 * x, d - 1, e - 1);
    } else if e > 0 {
      TenfoldWhole(x);
      DecimalsAtMostGrows(10.0 * x, 0, e - 1);
    }
  }

  /** Two decimal places, spelled out. */
  lemma TwoDecimals(x: real)
    ensures DecimalsAtMost(x, 2) <==> Whole(x * 100.0)
  {
    assert DecimalsAtMost(x, 2) == DecimalsAtMost(10.0 * x, 1);
    assert DecimalsAtMost(10.0 * x, 1) == Whole(10.0 * (10.0 * x));
    assert 10.0 * (10.0 * x) == x * 100.0;
  }
}

=== FILE: forms.dfy ===
/** Validation of the order form and the cash-operation form. A cleaned
    form is the only way a request reaches the ledger, so the constraints
    here are the preconditions of the ledger's operations. */
module Forms {
  import opened Outcomes
  import opened Text
  import opened Models
  import opened Decimals

  datatype FieldError = Required | TooLong | NullCharacter | InvalidChoice | BelowMinimum | TooManyDecimalPlaces | TooManyDigits | TooManyWholeDigits

  /** One error attached to one named field. */
  datatype FormError = FormError(field: string, error: FieldError)

  /** Longest symbol the order form accepts. */
  const OrderSymbolMaxLength: nat := 10

  /** Smallest quantity the order form accepts. */
  const OrderQuantityMin: int := 1

  /** The cash form's lower bound is given as the binary floating-point
      number nearest to 0.01, which lies slightly above it; the typed
      decimal amount is compared with that number exactly. */
  const CashAmountMin: real := 0.01000000000000000020816681711721685132943093776702880859375

  /** The amount field holds 12 digits, 2 of them after the point, so at
      most 10 before it. */
  const CashAmountMaxDigits: nat := 12
  const CashAmountDecimalPlaces: nat := 2
  const CashAmountBound: real := 10_000_000_000.0

  /** The order form as submitted. */
  datatype OrderData = OrderData(symbol: string, orderType: string, quantity: int)

  /** A cleaned order; its symbol is the stripped text, not yet upper-cased. */
  datatype Order = Order(symbol: string, side: TransactionType, quantity: nat)

  predicate ValidOrder(o: Order) {
    1 <= |o.symbol| <= OrderSymbolMaxLength && o.quantity >= 1
  }

  /** Errors of the required symbol field, judged on the stripped text:
      blank is missing; otherwise both the length limit and the ban on
      NUL characters apply. */
  function SymbolErrors(symbol: string): set<FormError> {
    var t := Strip(symbol);
    if |t| == 0 then {FormError("symbol", Required)}
    else
      (if |t| > OrderSymbolMaxLength then {FormError("symbol", TooLong)} else {})
      + (if '\0' in t then {FormError("symbol", NullCharacter)} else {})
  }

  /** Errors of the optional note field: only the ban on NUL characters. */
  function NoteErrors(note: string): set<FormError> {
    if '\0' in Strip(note) then {FormError("note", NullCharacter)} else {}
  }

  function ChoiceErrors(field: string, code: string, valid: bool): set<FormError> {
    if code == "" then {FormError(field, Required)}
    else if !valid then {FormError(field, InvalidChoice)}
    else {}
  }

  /** Every field error of a submitted order form. */
  function OrderFormErrors(data: OrderData): (errors: set<FormError>)
    ensures errors == {} <==>
      && 1 <= |Strip(data.symbol)| <= 10
      && '\0' !in data.symbol
      && (data.orderType == "BUY" || data.orderType == "SELL")
      && data.quantity >= 1
  {
    NulSurvivesStrip(data.symbol);
    SymbolErrors(data.symbol)
    + ChoiceErrors("type", data.orderType, ParseTransactionType(data.orderType).Some?)
    + (if data.quantity < OrderQuantityMin then {FormError("quantity", BelowMinimum)} else {})
  }

  /** A symbol is reported missing exactly when it is blank: empty or
      nothing but whitespace. */
  lemma BlankSymbolIsMissing(data: OrderData)
    ensures FormError("symbol", Required) in OrderFormErrors(data) <==> AllSpace(data.symbol)
  {
    StripBlank(data.symbol);
  }

  /** The cleaned order, or every field error. */
  function CleanOrder(data: OrderData): (r: Result<Order, set<FormError>>)
    ensures r.Ok? <==> OrderFormErrors(data) == {}
    ensures r.Err? ==> r.error == OrderFormErrors(data) && r.error != {}
    ensures r.Ok? ==> && ValidOrder(r.value)
                      && r.value.symbol == Strip(data.symbol)
                      && r.value.quantity == data.quantity
                      && TransactionTypeCode(r.value.side) == data.orderType
  {
    var errors := OrderFormErrors(data);
    if errors != {} then Err(errors)
    else Ok(Order(Strip(data.symbol), ParseTransactionType(data.orderType).value, data.quantity))
  }

  /** The cash-operation form as submitted. */
  datatype CashOperationData = CashOperationData(operationType: string, amount: real, note: string)

  /** A cleaned cash operation. */
  datatype CashRequest = CashRequest(kind: CashOperationType, amount: real, note: string)

  /** Stripping removes whitespace only, so a NUL character is in the
      stripped text exactly when it was typed. */
  lemma NulSurvivesStrip(s: string)
    ensures '\0' in Strip(s) <==> '\0' in s
  {
    var n := LeadingSpace(s);
    var r := Strip(s);
    StripShape(s);
    if '\0' in s {
      var i :| 0 <= i < |s| && s[i] == '\0';
      if n <= i < n + |r| {
        assert r[i - n] == s[i];
      }
    }
  }

  /** `x` is a whole number of hundredths. */
  predicate AtMostTwoDecimals(x: real) {
    Whole(x * 100.0)
  }

  predicate ValidCashRequest(c: CashRequest) {
    c.amount >= CashAmountMin && AtMostTwoDecimals(c.amount) && c.amount < CashAmountBound
  }

  /** A whole number of hundredths clears the lower bound exactly when it
      is at least 0.02. */
  lemma SmallestAmount(x: real)
    ensures AtMostTwoDecimals(x) ==> (x >= CashAmountMin <==> x >= 0.02)
  {
    if AtMostTwoDecimals(x) && x >= CashAmountMin {
      var k := (x * 100.0).Floor;
      assert k as real == x * 100.0 > 1.0;
      assert k >= 2;
    }
  }

  /** More than 12 digits in all: the whole digits plus the decimal places
      the exact value needs. */
  predicate TooManyDigitsInAll(x: real) {
    WholeDigits(x) > CashAmountMaxDigits || !DecimalsAtMost(x, CashAmountMaxDigits - WholeDigits(x))
  }

  /** The digit checks of the amount. They are made in turn and only the
      first that fails is reported: too many digits in all, then too many
      decimal places, then too many digits before the point. */
  function DigitErrors(x: real): (errors: set<FormError>)
    ensures errors == {} || errors == {FormError("amount", TooManyDigits)}
         || errors == {FormError("amount", TooManyDecimalPlaces)}
         || errors == {FormError("amount", TooManyWholeDigits)}
    ensures errors == {} <==> AtMostTwoDecimals(x) && -CashAmountBound < x < CashAmountBound
    ensures TooManyDigitsInAll(x) ==> errors == {FormError("amount", TooManyDigits)}
    ensures !TooManyDigitsInAll(x) && !AtMostTwoDecimals(x) ==>
      errors == {FormError("amount", TooManyDecimalPlaces)}
    ensures !TooManyDigitsInAll(x) && AtMostTwoDecimals(x) && !(-CashAmountBound < x < CashAmountBound) ==>
      errors == {FormError("amount", TooManyWholeDigits)}
  {
    DigitsWithinBound(x);
    if TooManyDigitsInAll(x) then {FormError("amount", TooManyDigits)}
    else if !AtMostTwoDecimals(x) then {FormError("amount", TooManyDecimalPlaces)}
    else if WholeDigits(x) > CashAmountMaxDigits - CashAmountDecimalPlaces then {FormError("amount", TooManyWholeDigits)}
    else {}
  }

  /** At most ten whole digits and two decimal places is the same as a
      whole number of cents strictly between -10^10 and 10^10, and then the
      digits in all are at most twelve. */
  lemma DigitsWithinBound(x: real)
    ensures AtMostTwoDecimals(x) && WholeDigits(x) <= 10 <==>
            AtMostTwoDecimals(x) && -CashAmountBound < x < CashAmountBound
    ensures AtMostTwoDecimals(x) && WholeDigits(x) <= 10 ==> !TooManyDigitsInAll(x)
  {
    var a := if x < 0.0 then -x else x;
    DigitCountBound(a.Floor as nat, 10);
    assert Pow10(10) == 10_000_000_000;
    if AtMostTwoDecimals(x) && WholeDigits(x) <= 10 {
      TwoDecimals(x);
      DecimalsAtMostGrows(x, 2, CashAmountMaxDigits - WholeDigits(x));
    }
  }

  /** 9999999999.999 has thirteen digits: only the count in all is reported,
      though it also has three decimal places. */
  lemma ThirteenDigitsReportedOnce()
    ensures DigitErrors(9999999999.999) == {FormError("amount", TooManyDigits)}
  {
    var x := 9999999999.999;
    DigitCountBound(9999999999, 10);
    DigitCountBound(9999999999, 9);
    assert x.Floor == 9999999999;
    TwoDecimals(x);
    assert (x * 100.0).Floor == 999999999999;
  }

  /** 10000000000.001 has eleven digits before the point and three after:
      again only the count in all is reported. */
  lemma FourteenDigitsReportedOnce()
    ensures DigitErrors(10000000000.001) == {FormError("amount", TooManyDigits)}
  {
    var x := 10000000000.001;
    DigitCountBound(10000000000, 11);
    DigitCountBound(10000000000, 10);
    assert x.Floor == 10000000000;
    assert DecimalsAtMost(x, 1) == Whole(10.0 * x);
    assert (10.0 * x).Floor == 100000000000;
  }

  /** 1.005 fits in twelve digits but has three decimal places. */
  lemma ThreeDecimalPlacesReported()
    ensures DigitErrors(1.005) == {FormError("amount", TooManyDecimalPlaces)}
  {
    DigitCountBound(1, 1);
    DigitCountBound(1, 0);
    assert (1.005).Floor == 1;
    assert DecimalsAtMost(1.005, 3) == Whole(10.0 * (10.0 * (10.0 * 1.005)));
    assert (10.0 * (10.0 * (10.0 * 1.005))).Floor == 1005;
    DecimalsAtMostGrows(1.005, 3, 11);
    assert (1.005 * 100.0).Floor == 100;
  }

  /** 12345678901.5 fits in twelve digits and one decimal place, but has
      eleven digits before the point. */
  lemma ElevenWholeDigitsReported()
    ensures DigitErrors(12345678901.5) == {FormError("amount", TooManyWholeDigits)}
  {
    var x := 12345678901.5;
    DigitCountBound(12345678901, 11);
    DigitCountBound(12345678901, 10);
    assert x.Floor == 12345678901;
    assert DecimalsAtMost(x, 1) == Whole(10.0 * x);
    assert 10.0 * x == 123456789015 as real;
    TwoDecimals(x);
    assert x * 100.0 == 1234567890150 as real;
  }

  function AmountErrors(amount: real): set<FormError> {
    (if amount < CashAmountMin then {FormError("amount", BelowMinimum)} else {})
    + DigitErrors(amount)
  }

  /** Every field error of a submitted cash form; the note is optional.
      Because the lower bound lies just above 0.01, the smallest amount
      accepted is 0.02. */
  function CashFormErrors(data: CashOperationData): (errors: set<FormError>)
    ensures errors == {} <==>
      && (data.operationType == "IN" || data.operationType == "OUT")
      && 0.02 <= data.amount < 10_000_000_000.0
      && AtMostTwoDecimals(data.amount)
      && '\0' !in data.note
    ensures data.amount <= 0.01 ==> FormError("amount", BelowMinimum) in errors
  {
    SmallestAmount(data.amount);
    NulSurvivesStrip(data.note);
    ChoiceErrors("type", data.operationType, ParseCashOperationType(data.operationType).Some?)
    + AmountErrors(data.amount)
    + NoteErrors(data.note)
  }

  /** The cleaned cash operation, or every field error. */
  function CleanCashOperation(data: CashOperationData): (r: Result<CashRequest, set<FormError>>)
    ensures r.Ok? <==> CashFormErrors(data) == {}
    ensures r.Err? ==> r.error == CashFormErrors(data) && r.error != {}
    ensures r.Ok? ==> && ValidCashRequest(r.value)
                      && r.value.amount == data.amount
                      && r.value.note == Strip(data.note)
                      && CashOperationTypeCode(r.value.kind) == data.operationType
  {
    var errors := CashFormErrors(data);
    if errors != {} then Err(errors)
    else Ok(CashRequest(ParseCashOperationType(data.operationType).value, data.amount, Strip(data.note)))
  }

  /** Upper-casing the typed symbol changes none of the form's errors. */
  lemma OrderFormErrorsIgnoreCase(data: OrderData)
    ensures OrderFormErrors(data.(symbol := Upper(data.symbol))) == OrderFormErrors(data)
  {
    StripUpperCommute(data.symbol);
    UpperKeepsNul(Strip(data.symbol));
  }

  /** Upper-casing the typed symbol changes only the case of the cleaned one. */
  lemma CleanOrderUpper(data: OrderData)
    requires CleanOrder(data).Ok?
    ensures var c := CleanOrder(data).value;
            CleanOrder(data.(symbol := Upper(data.symbol))) == Ok(c.(symbol := Upper(c.symbol)))
  {
    var typed := data.symbol;
    StripUpperCommute(typed);
    UpperKeepsNul(typed);
    assert OrderFormErrors(data.(symbol := Upper(typed))) == {};
  }

  /** A deposit of one cent is refused for its amount alone. */
  lemma OneCentIsBelowMinimum()
    ensures CleanCashOperation(CashOperationData("IN", 0.01, "")) == Err({FormError("amount", BelowMinimum)})
  {
    StripUnique([], [], []);
    assert [] + [] + [] == "";
    assert (0.01 * 100.0).Floor == 1;
    assert AmountErrors(0.01) == {FormError("amount", BelowMinimum)};
    assert NoteErrors("") == {};
    assert CashFormErrors(CashOperationData("IN", 0.01, "")) == {FormError("amount", BelowMinimum)};
  }

  /** A withdrawal of two cents is accepted. */
  lemma TwoCentsAccepted()
    ensures CleanCashOperation(CashOperationData("OUT", 0.02, "")) == Ok(CashRequest(Out, 0.02, ""))
  {
    StripUnique([], [], []);
    assert [] + [] + [] == "";
    assert (0.02 * 100.0).Floor == 2;
    assert CashFormErrors(CashOperationData("OUT", 0.02, "")) == {};
  }
}

=== FILE: ledger.dfy ===
/** The portfolio ledger: order placement (pricing, BUY and SELL
    settlement) and cash operations. Each request is one atomic step that
    either produces the new portfolio or a rejection; a rejection leaves
    the caller's portfolio as it was. */
module Ledger {
  import opened Outcomes
  import opened Text
  import opened Models
  import opened Forms
  import opened Services

  /** Why a request was refused. */
  datatype Rejection =
    | InvalidForm(errors: set<FormError>)
    | UnknownSymbol
    | NoPriceAvailable
    | InsufficientFunds
    | NoHolding
    | InsufficientQuantity

  /** The position held in `symbol`, if any. */
  function Holding(p: Portfolio, symbol: string): Option<Position> {
    if symbol in p.positions then Some(p.positions[symbol]) else None
  }

  /** Shares held (zero when nothing is held). */
  function HeldQuantity(held: Option<Position>): nat {
    if held.Some? then held.value.quantity else 0
  }

  /** Cost basis of a holding: average cost times shares (zero when nothing is held). */
  function CostOf(held: Option<Position>): real {
    if held.Some? then held.value.avgPrice * held.value.quantity as real else 0.0
  }

  /** The cash a transaction moves: a BUY pays, a SELL receives. */
  function TradeFlow(t: Transaction): real {
    match t.kind
    case Buy => -(t.price * t.quantity as real)
    case Sell => t.price * t.quantity as real
  }

  /** The cash a cash operation moves: a deposit adds, a withdrawal removes. */
  function CashFlow(op: CashOperation): real {
    match op.kind
    case In => op.amount
    case Out => -op.amount
  }

  /** The position after buying `quantity` more at `price`: created at that
      price when nothing was held, otherwise blended by cost. */
  function Blend(held: Option<Position>, quantity: nat, price: real): (pos: Position)
    requires quantity >= 1
    ensures pos.quantity == HeldQuantity(held) + quantity
    ensures pos.avgPrice * pos.quantity as real == CostOf(held) + price * quantity as real
  {
    match held
    case None => Position(quantity, price)
    case Some(held0) =>
      var newQty := held0.quantity + quantity;
      var newTotal := held0.avgPrice * held0.quantity as real + price * quantity as real;
      Position(newQty, newTotal / newQty as real)
  }

  /** BUY settlement: refuse when the cash does not cover price times
      quantity; otherwise pay, grow the position and record the order. */
  function ExecuteBuy(p: Portfolio, symbol: string, quantity: nat, price: real, now: Instant)
    : (r: Result<Portfolio, Rejection>)
    requires quantity >= 1
    ensures r.Err? <==> p.cash < price * quantity as real
    ensures r.Err? ==> r.error == InsufficientFunds
    ensures r.Ok? ==>
      && r.value.cash == p.cash - price * quantity as real
      && r.value.positions.Keys == p.positions.Keys + {symbol}
      && r.value.positions - {symbol} == p.positions - {symbol}
      && HeldQuantity(Holding(r.value, symbol)) == HeldQuantity(Holding(p, symbol)) + quantity
      && CostOf(Holding(r.value, symbol)) == CostOf(Holding(p, symbol)) + price * quantity as real
      && (symbol !in p.positions ==> r.value.positions[symbol] == Position(quantity, price))
      && r.value.transactions == p.transactions + [Transaction(symbol, Buy, quantity, price, now)]
      && r.value.cashOperations == p.cashOperations
  {
    var total := price * quantity as real;
    if p.cash < total then Err(InsufficientFunds)
    else
      var position := Blend(Holding(p, symbol), quantity, price);
      Ok(p.(cash := p.cash - total,
            positions := p.positions[symbol := position],
            transactions := p.transactions + [Transaction(symbol, Buy, quantity, price, now)]))
  }

  /** SELL settlement: refuse when nothing or too little is held; otherwise
      shrink the position (dropping it at zero), collect the proceeds and
      record the order. */
  function ExecuteSell(p: Portfolio, symbol: string, quantity: nat, price: real, now: Instant)
    : (r: Result<Portfolio, Rejection>)
    requires quantity >= 1
    ensures r.Err? <==> symbol !in p.positions || p.positions[symbol].quantity < quantity
    ensures symbol !in p.positions ==> r == Err(NoHolding)
    ensures symbol in p.positions && p.positions[symbol].quantity < quantity ==> r == Err(InsufficientQuantity)
    ensures r.Ok? ==>
      && r.value.cash == p.cash + price * quantity as real
      && r.value.positions - {symbol} == p.positions - {symbol}
      && HeldQuantity(Holding(r.value, symbol)) == p.positions[symbol].quantity - quantity
      && (symbol in r.value.positions <==> p.positions[symbol].quantity != quantity)
      && (symbol in r.value.positions ==>
            r.value.positions[symbol].avgPrice == p.positions[symbol].avgPrice)
      && r.value.transactions == p.transactions + [Transaction(symbol, Sell, quantity, price, now)]
      && r.value.cashOperations == p.cashOperations
  {
    if symbol !in p.positions then Err(NoHolding)
    else
      var position := p.positions[symbol];
      if position.quantity < quantity then Err(InsufficientQuantity)
      else
        var left := position.quantity - quantity;
        var positions :=
          if left == 0 then p.positions - {symbol}
          else p.positions[symbol := position.(quantity := left)];
        Ok(p.(cash := p.cash + price * quantity as real,
              positions := positions,
              transactions := p.transactions + [Transaction(symbol, Sell, quantity, price, now)]))
  }

  /** The catalog after pricing, and the price or the reason there is none. */
  datatype Pricing = Pricing(catalog: Catalog, price: Result<real, Rejection>)

  /** The pricing stage of an order: the symbol must name a stock; a fresh
      quote is saved on the stock at once (a full save, so its timestamp
      becomes `now`); without one the stored price is used; with neither
      the order is refused. */
  function PriceOrder(catalog: Catalog, symbol: string, quotes: string -> Quote, now: Instant)
    : (r: Pricing)
    ensures r.catalog.Keys == catalog.Keys
    ensures r.catalog - {symbol} == catalog - {symbol}
    ensures symbol !in catalog ==> r == Pricing(catalog, Err(UnknownSymbol))
    ensures symbol in catalog && FetchStockPrice(quotes(symbol)).Some? ==>
      && r.price == Ok(FetchStockPrice(quotes(symbol)).value)
      && r.catalog[symbol] == catalog[symbol].(lastPrice := FetchStockPrice(quotes(symbol)), updatedAt := now)
    ensures symbol in catalog && FetchStockPrice(quotes(symbol)).None? ==>
      && r.catalog == catalog
      && (r.price.Err? <==> catalog[symbol].lastPrice.None?)
    ensures r.price.Err? ==> r.price.error == UnknownSymbol || r.price.error == NoPriceAvailable
    ensures r.price.Ok? ==> symbol in r.catalog && r.catalog[symbol].lastPrice == Some(r.price.value)
  {
    if symbol !in catalog then Pricing(catalog, Err(UnknownSymbol))
    else
      var stock := catalog[symbol];
      match FetchStockPrice(quotes(symbol))
      case Some(quoted) =>
        Pricing(catalog[symbol := stock.(lastPrice := Some(quoted), updatedAt := now)], Ok(quoted))
      case None =>
        match stock.lastPrice
        case Some(stored) => Pricing(catalog, Ok(stored))
        case None => Pricing(catalog, Err(NoPriceAvailable))
  }

  /** Settlement of a cleaned order at a known price. */
  function Execute(p: Portfolio, symbol: string, side: TransactionType, quantity: nat, price: real, now: Instant)
    : (r: Result<Portfolio, Rejection>)
    requires quantity >= 1
    ensures r.Err? <==>
      || (side == Buy && p.cash < price * quantity as real)
      || (side == Sell && (symbol !in p.positions || p.positions[symbol].quantity < quantity))
    ensures r.Ok? ==>
      && r.value.transactions == p.transactions + [Transaction(symbol, side, quantity, price, now)]
      && r.value.cash == p.cash + TradeFlow(Transaction(symbol, side, quantity, price, now))
      && r.value.positions - {symbol} == p.positions - {symbol}
      && (side == Buy ==> HeldQuantity(Holding(r.value, symbol)) == HeldQuantity(Holding(p, symbol)) + quantity)
      && (side == Sell ==> HeldQuantity(Holding(r.value, symbol)) + quantity == HeldQuantity(Holding(p, symbol)))
      && r.value.cashOperations == p.cashOperations
  {
    match side
    case Buy => ExecuteBuy(p, symbol, quantity, price, now)
    case Sell =>
      var r := ExecuteSell(p, symbol, quantity, price, now);
      assert r.Ok? ==> Holding(p, symbol) == Some(p.positions[symbol]);
      r
  }

  /** What an order request leaves behind: the catalog (a fetched price is
      kept even when the order is then refused) and the outcome. */
  datatype OrderOutcome = OrderOutcome(catalog: Catalog, result: Result<Portfolio, Rejection>)

  /** An order request: clean the form, upper-case the symbol, price it,
      settle it. `quotes` answers the market-data fetch; `now` is the time
      of the request. */
  function PlaceOrder(catalog: Catalog, p: Portfolio, data: OrderData, quotes: string -> Quote, now: Instant)
    : (out: OrderOutcome)
    ensures CleanOrder(data).Err? ==> out == OrderOutcome(catalog, Err(InvalidForm(OrderFormErrors(data))))
    ensures out.catalog.Keys == catalog.Keys
    ensures out.catalog - {Upper(Strip(data.symbol))} == catalog - {Upper(Strip(data.symbol))}
    ensures out.result.Ok? ==>
      var sym := Upper(Strip(data.symbol));
      var ts := out.result.value.transactions;
      && sym in out.catalog && out.catalog[sym].lastPrice.Some?
      && |ts| == |p.transactions| + 1
      && ts[..|p.transactions|] == p.transactions
      && ts[|p.transactions|].symbol == sym
      && ts[|p.transactions|].quantity == data.quantity
      && TransactionTypeCode(ts[|p.transactions|].kind) == data.orderType
      && ts[|p.transactions|].price == out.catalog[sym].lastPrice.value
      && ts[|p.transactions|].createdAt == now
      && out.result.value.cash == p.cash + TradeFlow(ts[|p.transactions|])
      && out.result.value.positions - {sym} == p.positions - {sym}
      && (data.orderType == "BUY" ==>
            HeldQuantity(Holding(out.result.value, sym)) == HeldQuantity(Holding(p, sym)) + data.quantity)
      && (data.orderType == "SELL" ==>
            HeldQuantity(Holding(out.result.value, sym)) + data.quantity == HeldQuantity(Holding(p, sym)))
      && out.result.value.cashOperations == p.cashOperations
  {
    match CleanOrder(data)
    case Err(errors) => OrderOutcome(catalog, Err(InvalidForm(errors)))
    case Ok(order) =>
      var symbol := Upper(order.symbol);
      var priced := PriceOrder(catalog, symbol, quotes, now);
      match priced.price
      case Err(why) => OrderOutcome(priced.catalog, Err(why))
      case Ok(price) =>
        OrderOutcome(priced.catalog, Execute(p, symbol, order.side, order.quantity, price, now))
  }

  /** A deposit: add the amount and record it. */
  function Deposit(p: Portfolio, amount: real, note: string, now: Instant): (q: Portfolio)
    ensures q.cash == p.cash + amount
    ensures q.positions == p.positions && q.transactions == p.transactions
    ensures q.cashOperations == p.cashOperations + [CashOperation(In, amount, note, now)]
  {
    p.(cash := p.cash + amount,
       cashOperations := p.cashOperations + [CashOperation(In, amount, note, now)])
  }

  /** A withdrawal: refused when the cash does not cover it (taking out
      exactly the balance is allowed); otherwise subtract and record it. */
  function Withdraw(p: Portfolio, amount: real, note: string, now: Instant): (r: Result<Portfolio, Rejection>)
    ensures r.Err? <==> p.cash < amount
    ensures r.Err? ==> r.error == InsufficientFunds
    ensures r.Ok? ==>
      && r.value.cash == p.cash - amount
      && r.value.positions == p.positions && r.value.transactions == p.transactions
      && r.value.cashOperations == p.cashOperations + [CashOperation(Out, amount, note, now)]
  {
    if p.cash < amount then Err(InsufficientFunds)
    else
      Ok(p.(cash := p.cash - amount,
            cashOperations := p.cashOperations + [CashOperation(Out, amount, note, now)]))
  }

  /** A cash-operation request: clean the form, then deposit or withdraw. */
  function PerformCashOperation(p: Portfolio, data: CashOperationData, now: Instant)
    : (r: Result<Portfolio, Rejection>)
    ensures CleanCashOperation(data).Err? ==> r == Err(InvalidForm(CashFormErrors(data)))
    ensures r.Err? <==> CleanCashOperation(data).Err? || (data.operationType == "OUT" && p.cash < data.amount)
    ensures r.Ok? ==>
      var ops := r.value.cashOperations;
      && |ops| == |p.cashOperations| + 1
      && ops[..|p.cashOperations|] == p.cashOperations
      && ops[|p.cashOperations|].amount == data.amount
      && ops[|p.cashOperations|].note == Strip(data.note)
      && CashOperationTypeCode(ops[|p.cashOperations|].kind) == data.operationType
      && ops[|p.cashOperations|].createdAt == now
      && r.value.cash == p.cash + CashFlow(ops[|p.cashOperations|])
      && r.value.positions == p.positions
      && r.value.transactions == p.transactions
  {
    match CleanCashOperation(data)
    case Err(errors) => Err(InvalidForm(errors))
    case Ok(request) =>
      match request.kind
      case In => Ok(Deposit(p, request.amount, request.note, now))
      case Out => Withdraw(p, request.amount, request.note, now)
  }
}

=== FILE: ledger_facts.dfy ===
/** Properties of the ledger that relate several operations or hold across
    whole histories. */
module LedgerFacts {
  import opened Outcomes
  import opened Text
  import opened Models
  import opened Forms
  import opened Services
  import opened Ledger

  // ---------------------------------------------------------------------
  // Cost basis

  /** Two positive-quantity positions with the same shares and the same
      cost basis have the same average cost. */
  lemma SameCostSameAverage(a: Position, b: Position)
    requires a.quantity == b.quantity >= 1
    requires a.avgPrice * a.quantity as real == b.avgPrice * b.quantity as real
    ensures a == b
  {
    var n := a.quantity as real;
    assert a.avgPrice == (a.avgPrice * n) / n;
    assert b.avgPrice == (b.avgPrice * n) / n;
  }

  /** Buying at the position's own average cost leaves the average as it was. */
  lemma BuyAtAverageKeepsAverage(p: Portfolio, symbol: string, quantity: nat, now: Instant)
    requires quantity >= 1
    requires symbol in p.positions
    requires ExecuteBuy(p, symbol, quantity, p.positions[symbol].avgPrice, now).Ok?
    ensures ExecuteBuy(p, symbol, quantity, p.positions[symbol].avgPrice, now).value.positions[symbol].avgPrice
         == p.positions[symbol].avgPrice
  {
    var held := p.positions[symbol];
    var price := held.avgPrice;
    var after := ExecuteBuy(p, symbol, quantity, price, now).value.positions[symbol];
    var n := held.quantity as real;
    var q := quantity as real;
    assert after.avgPrice * (n + q) == price * n + price * q;
    assert price * n + price * q == price * (n + q);
    SameCostSameAverage(after, Position(after.quantity, price));
  }

  /** Blending twice at one price is blending once with the sum. */
  lemma BlendTwice(held: Option<Position>, q1: nat, q2: nat, price: real)
    requires q1 >= 1 && q2 >= 1
    ensures Blend(Some(Blend(held, q1, price)), q2, price) == Blend(held, q1 + q2, price)
  {
    var twice := Blend(Some(Blend(held, q1, price)), q2, price);
    var once := Blend(held, q1 + q2, price);
    assert price * q1 as real + price * q2 as real == price * (q1 + q2) as real;
    SameCostSameAverage(twice, once);
  }

  /** Splitting a BUY into two at the same price ends in the same cash and
      the same positions as the single order (only the history differs). */
  lemma SplitBuyMatchesSingleBuy(p: Portfolio, symbol: string, q1: nat, q2: nat, price: real, t1: Instant, t2: Instant)
    requires q1 >= 1 && q2 >= 1 && price >= 0.0
    requires ExecuteBuy(p, symbol, q1 + q2, price, t1).Ok?
    ensures ExecuteBuy(p, symbol, q1, price, t1).Ok?
    ensures ExecuteBuy(ExecuteBuy(p, symbol, q1, price, t1).value, symbol, q2, price, t2).Ok?
    ensures var split := ExecuteBuy(ExecuteBuy(p, symbol, q1, price, t1).value, symbol, q2, price, t2).value;
            var whole := ExecuteBuy(p, symbol, q1 + q2, price, t1).value;
            split.cash == whole.cash && split.positions == whole.positions
  {
    var x1 := price * q1 as real;
    var x2 := price * q2 as real;
    assert price * (q1 + q2) as real == x1 + x2 && x2 >= 0.0;
    var first := ExecuteBuy(p, symbol, q1, price, t1);
    assert first.Ok?;
    var second := ExecuteBuy(first.value, symbol, q2, price, t2);
    assert second.Ok?;
    var held := Holding(p, symbol);
    BlendTwice(held, q1, q2, price);
    assert Holding(first.value, symbol) == Some(Blend(held, q1, price));
  }

  // ---------------------------------------------------------------------
  // Round trips

  /** Buying into a new position and selling it all at the same price gives
      back the cash and the positions; only the history grows. */
  lemma BuyThenSellRestores(p: Portfolio, symbol: string, quantity: nat, price: real, t1: Instant, t2: Instant)
    requires quantity >= 1 && symbol !in p.positions
    requires ExecuteBuy(p, symbol, quantity, price, t1).Ok?
    ensures var bought := ExecuteBuy(p, symbol, quantity, price, t1).value;
            var sold := ExecuteSell(bought, symbol, quantity, price, t2);
            && sold.Ok?
            && sold.value.cash == p.cash
            && sold.value.positions == p.positions
            && sold.value.transactions == p.transactions
                 + [Transaction(symbol, Buy, quantity, price, t1), Transaction(symbol, Sell, quantity, price, t2)]
  {
    var bought := ExecuteBuy(p, symbol, quantity, price, t1).value;
    assert bought.positions == p.positions[symbol := Position(quantity, price)];
    assert bought.positions - {symbol} == p.positions;
  }

  /** From a non-negative balance, a deposit followed by the withdrawal of
      the same amount is always allowed and gives back the balance. */
  lemma DepositThenWithdrawRestores(p: Portfolio, amount: real, note: string, t1: Instant, t2: Instant)
    requires p.cash >= 0.0
    ensures var back := Withdraw(Deposit(p, amount, note, t1), amount, note, t2);
            && back.Ok?
            && back.value.cash == p.cash
            && back.value.positions == p.positions
            && back.value.transactions == p.transactions
  {
  }

  // ---------------------------------------------------------------------
  // Reconciliation with the histories

  /** Net cash moved by a list of cash operations. */
  function NetCash(ops: seq<CashOperation>): real {
    if |ops| == 0 then 0.0 else NetCash(ops[..|ops| - 1]) + CashFlow(ops[|ops| - 1])
  }

  /** Net cash moved by a list of transactions. */
  function NetTrades(ts: seq<Transaction>): real {
    if |ts| == 0 then 0.0 else NetTrades(ts[..|ts| - 1]) + TradeFlow(ts[|ts| - 1])
  }

  /** Shares of `symbol` bought minus shares sold over a list of transactions. */
  function NetShares(ts: seq<Transaction>, symbol: string): int {
    if |ts| == 0 then 0
    else
      var t := ts[|ts| - 1];
      NetShares(ts[..|ts| - 1], symbol)
        + (if t.symbol != symbol then 0 else if t.kind == Buy then t.quantity as int else -(t.quantity as int))
  }

  /** The balance is the opening cash plus everything the histories moved. */
  predicate CashReconciled(p: Portfolio) {
    p.cash == InitialCash + NetCash(p.cashOperations) + NetTrades(p.transactions)
  }

  /** Every holding is what the transaction history bought minus what it sold. */
  ghost predicate SharesReconciled(p: Portfolio) {
    forall s :: HeldQuantity(Holding(p, s)) == NetShares(p.transactions, s)
  }

  /** A portfolio opens reconciled. */
  lemma NewPortfolioReconciled()
    ensures CashReconciled(NewPortfolio()) && SharesReconciled(NewPortfolio())
  {
  }

  /** Appending a transaction adds its share movement for every symbol. */
  lemma NetSharesAppend(ts: seq<Transaction>, t: Transaction, s: string)
    ensures NetShares(ts + [t], s) == NetShares(ts, s)
      + (if t.symbol != s then 0 else if t.kind == Buy then t.quantity as int else -(t.quantity as int))
  {
    assert (ts + [t])[..|ts|] == ts;
  }

  /** Settlement moves shares of the traded symbol only. */
  lemma HoldingsElsewhereUnchanged(p: Portfolio, p': Portfolio, symbol: string, s: string)
    requires p'.positions - {symbol} == p.positions - {symbol}
    requires s != symbol
    ensures Holding(p', s) == Holding(p, s)
  {
    assert s in p'.positions <==> s in p'.positions - {symbol};
    assert s in p.positions <==> s in p.positions - {symbol};
    if s in p.positions {
      assert (p'.positions - {symbol})[s] == (p.positions - {symbol})[s];
    }
  }

  /** An executed order keeps the share reconciliation. */
  lemma ExecuteKeepsSharesReconciled(p: Portfolio, symbol: string, side: TransactionType, quantity: nat, price: real, now: Instant)
    requires quantity >= 1
    requires SharesReconciled(p)
    ensures var r := Execute(p, symbol, side, quantity, price, now);
            r.Ok? ==> SharesReconciled(r.value)
  {
    var r := Execute(p, symbol, side, quantity, price, now);
    if r.Ok? {
      var t := Transaction(symbol, side, quantity, price, now);
      forall s
        ensures HeldQuantity(Holding(r.value, s)) == NetShares(r.value.transactions, s)
      {
        NetSharesAppend(p.transactions, t, s);
        if s != symbol {
          HoldingsElsewhereUnchanged(p, r.value, symbol, s);
        }
      }
    }
  }

  /** An executed order keeps both reconciliations. */
  lemma ExecuteKeepsReconciled(p: Portfolio, symbol: string, side: TransactionType, quantity: nat, price: real, now: Instant)
    requires quantity >= 1
    requires CashReconciled(p) && SharesReconciled(p)
    ensures var r := Execute(p, symbol, side, quantity, price, now);
            r.Ok? ==> CashReconciled(r.value) && SharesReconciled(r.value)
  {
    var r := Execute(p, symbol, side, quantity, price, now);
    if r.Ok? {
      var ts := r.value.transactions;
      assert ts[..|ts| - 1] == p.transactions;
      ExecuteKeepsSharesReconciled(p, symbol, side, quantity, price, now);
    }
  }

  /** An order request keeps both reconciliations. */
  lemma PlaceOrderKeepsReconciled(catalog: Catalog, p: Portfolio, data: OrderData, quotes: string -> Quote, now: Instant)
    requires CashReconciled(p) && SharesReconciled(p)
    ensures var out := PlaceOrder(catalog, p, data, quotes, now);
            out.result.Ok? ==> CashReconciled(out.result.value) && SharesReconciled(out.result.value)
  {
    var cleaned := CleanOrder(data);
    if cleaned.Ok? {
      var order := cleaned.value;
      var priced := PriceOrder(catalog, Upper(order.symbol), quotes, now);
      if priced.price.Ok? {
        ExecuteKeepsReconciled(p, Upper(order.symbol), order.side, order.quantity, priced.price.value, now);
      }
    }
  }

  /** A cash-operation request keeps both reconciliations. */
  lemma CashOperationKeepsReconciled(p: Portfolio, data: CashOperationData, now: Instant)
    requires CashReconciled(p) && SharesReconciled(p)
    ensures var r := PerformCashOperation(p, data, now);
            r.Ok? ==> CashReconciled(r.value) && SharesReconciled(r.value)
  {
    var r := PerformCashOperation(p, data, now);
    if r.Ok? {
      var ops := r.value.cashOperations;
      assert ops[..|ops| - 1] == p.cashOperations;
    }
  }

  // ---------------------------------------------------------------------
  // Well-formedness

  /** Blending non-negative costs gives a non-negative average. */
  lemma BlendNonNegative(held: Option<Position>, quantity: nat, price: real)
    requires quantity >= 1 && price >= 0.0
    requires held.Some? ==> held.value.avgPrice >= 0.0
    ensures Blend(held, quantity, price).avgPrice >= 0.0
  {
    var pos := Blend(held, quantity, price);
    var n := pos.quantity as real;
    assert pos.avgPrice * n == CostOf(held) + price * quantity as real;
    assert CostOf(held) >= 0.0 && price * quantity as real >= 0.0;
  }

  /** Appending a record with a positive quantity keeps the history well-formed. */
  lemma HistoryAppendValid(ts: seq<Transaction>, t: Transaction)
    requires forall i :: 0 <= i < |ts| ==> ts[i].quantity >= 1
    requires t.quantity >= 1
    ensures forall i :: 0 <= i < |ts + [t]| ==> (ts + [t])[i].quantity >= 1
  {
  }

  /** A BUY at a non-negative price keeps a portfolio well-formed. */
  lemma BuyPreservesValid(p: Portfolio, symbol: string, quantity: nat, price: real, now: Instant)
    requires quantity >= 1 && price >= 0.0
    requires ValidPortfolio(p)
    ensures var r := ExecuteBuy(p, symbol, quantity, price, now);
            r.Ok? ==> ValidPortfolio(r.value)
  {
    var r := ExecuteBuy(p, symbol, quantity, price, now);
    if r.Ok? {
      var pos := Blend(Holding(p, symbol), quantity, price);
      BlendNonNegative(Holding(p, symbol), quantity, price);
      assert r.value.positions == p.positions[symbol := pos];
      HistoryAppendValid(p.transactions, Transaction(symbol, Buy, quantity, price, now));
    }
  }

  /** A SELL at a non-negative price keeps a portfolio well-formed. */
  lemma SellPreservesValid(p: Portfolio, symbol: string, quantity: nat, price: real, now: Instant)
    requires quantity >= 1 && price >= 0.0
    requires ValidPortfolio(p)
    ensures var r := ExecuteSell(p, symbol, quantity, price, now);
            r.Ok? ==> ValidPortfolio(r.value)
  {
    var r := ExecuteSell(p, symbol, quantity, price, now);
    if r.Ok? {
      assert price * quantity as real >= 0.0;
      HistoryAppendValid(p.transactions, Transaction(symbol, Sell, quantity, price, now));
    }
  }

  /** Settlement at a non-negative price keeps a portfolio well-formed and
      adds no position other than the traded one. */
  lemma ExecutePreservesValid(p: Portfolio, symbol: string, side: TransactionType, quantity: nat, price: real, now: Instant)
    requires quantity >= 1 && price >= 0.0
    requires ValidPortfolio(p)
    ensures var r := Execute(p, symbol, side, quantity, price, now);
            r.Ok? ==> ValidPortfolio(r.value) && r.value.positions.Keys <= p.positions.Keys + {symbol}
  {
    match side
    case Buy => BuyPreservesValid(p, symbol, quantity, price, now);
    case Sell => SellPreservesValid(p, symbol, quantity, price, now);
  }

  /** An order request keeps catalog and portfolio well-formed, provided the
      market-data answers are non-negative. In particular cash never goes
      negative and no stored position is empty. */
  lemma PlaceOrderPreservesValid(catalog: Catalog, p: Portfolio, data: OrderData, quotes: string -> Quote, now: Instant)
    requires ValidState(catalog, p)
    requires QuotesNonNegative(quotes)
    ensures var out := PlaceOrder(catalog, p, data, quotes, now);
            ValidState(out.catalog, if out.result.Ok? then out.result.value else p)
  {
    var out := PlaceOrder(catalog, p, data, quotes, now);
    var cleaned := CleanOrder(data);
    if cleaned.Ok? {
      var order := cleaned.value;
      var symbol := Upper(order.symbol);
      var priced := PriceOrder(catalog, symbol, quotes, now);
      assert out.catalog == priced.catalog;
      forall s | s in out.catalog
        ensures out.catalog[s].symbol == s
        ensures out.catalog[s].lastPrice.Some? ==> out.catalog[s].lastPrice.value >= 0.0
      {
        if s != symbol {
          assert out.catalog[s] == (out.catalog - {symbol})[s] == (catalog - {symbol})[s];
        }
      }
      if priced.price.Ok? {
        ExecutePreservesValid(p, symbol, order.side, order.quantity, priced.price.value, now);
      }
    }
  }

  /** The part of well-formedness that holds whatever the prices: every
      stored position holds at least one share and every trade record a
      positive quantity. */
  predicate CountsPositive(p: Portfolio) {
    && (forall s :: s in p.positions ==> p.positions[s].quantity >= 1)
    && (forall i :: 0 <= i < |p.transactions| ==> p.transactions[i].quantity >= 1)
  }

  /** At any price, settlement stores no empty position, records a positive
      quantity, adds no position but the traded one, and a BUY never takes
      the cash below zero. */
  lemma ExecuteKeepsCounts(p: Portfolio, symbol: string, side: TransactionType, quantity: nat, price: real, now: Instant)
    requires quantity >= 1
    requires CountsPositive(p)
    ensures var r := Execute(p, symbol, side, quantity, price, now);
            r.Ok? ==> && CountsPositive(r.value)
                      && r.value.positions.Keys <= p.positions.Keys + {symbol}
                      && (side == Buy ==> r.value.cash >= 0.0)
  {
    var r := Execute(p, symbol, side, quantity, price, now);
    if r.Ok? {
      HistoryAppendValid(p.transactions, Transaction(symbol, side, quantity, price, now));
      forall s | s in r.value.positions
        ensures r.value.positions[s].quantity >= 1
      {
        if s != symbol {
          HoldingsElsewhereUnchanged(p, r.value, symbol, s);
        }
      }
    }
  }

  /** At any market-data answers, an order request keeps every position at
      one share or more and in the catalog, and every trade record
      positive; a BUY leaves the cash non-negative. */
  lemma PlaceOrderKeepsCounts(catalog: Catalog, p: Portfolio, data: OrderData, quotes: string -> Quote, now: Instant)
    requires CountsPositive(p) && p.positions.Keys <= catalog.Keys
    ensures var out := PlaceOrder(catalog, p, data, quotes, now);
            out.result.Ok? ==> && CountsPositive(out.result.value)
                               && out.result.value.positions.Keys <= out.catalog.Keys
                               && (data.orderType == "BUY" ==> out.result.value.cash >= 0.0)
  {
    var cleaned := CleanOrder(data);
    if cleaned.Ok? {
      var order := cleaned.value;
      var symbol := Upper(order.symbol);
      var priced := PriceOrder(catalog, symbol, quotes, now);
      if priced.price.Ok? {
        ExecuteKeepsCounts(p, symbol, order.side, order.quantity, priced.price.value, now);
      }
    }
  }

  /** A cash-operation request keeps the portfolio well-formed: a deposit
      only adds, a withdrawal never takes the balance below zero. */
  lemma CashOperationPreservesValid(p: Portfolio, data: CashOperationData, now: Instant)
    requires ValidPortfolio(p)
    ensures var r := PerformCashOperation(p, data, now);
            r.Ok? ==> ValidPortfolio(r.value)
  {
  }

  // ---------------------------------------------------------------------
  // Symbols

  /** The handler upper-cases the symbol, so an order names the same stock
      whatever the case it was typed in. */
  lemma PlaceOrderIgnoresCase(catalog: Catalog, p: Portfolio, data: OrderData, quotes: string -> Quote, now: Instant)
    ensures PlaceOrder(catalog, p, data.(symbol := Upper(data.symbol)), quotes, now)
         == PlaceOrder(catalog, p, data, quotes, now)
  {
    OrderFormErrorsIgnoreCase(data);
    if CleanOrder(data).Ok? {
      CleanOrderUpper(data);
      UpperIdempotent(CleanOrder(data).value.symbol);
    }
  }

  /** A valid order request is pricing followed by settlement of the
      cleaned order. */
  lemma PlaceOrderSteps(catalog: Catalog, p: Portfolio, data: OrderData, quotes: string -> Quote, now: Instant)
    requires CleanOrder(data).Ok?
    ensures var order := CleanOrder(data).value;
      var priced := PriceOrder(catalog, Upper(Strip(data.symbol)), quotes, now);
      && order.symbol == Strip(data.symbol)
      && PlaceOrder(catalog, p, data, quotes, now).catalog == priced.catalog
      && (priced.price.Err? ==> PlaceOrder(catalog, p, data, quotes, now).result == Err(priced.price.error))
      && (priced.price.Ok? ==>
            PlaceOrder(catalog, p, data, quotes, now).result
              == Execute(p, Upper(Strip(data.symbol)), order.side, order.quantity, priced.price.value, now))
  {
  }

  /** The pricing part of a valid order request: an unknown symbol is
      refused with nothing changed; the ordered stock takes a fetched price,
      stamped now, or stays as it was; without any price the order is
      refused. */
  lemma PlaceOrderPricing(catalog: Catalog, p: Portfolio, data: OrderData, quotes: string -> Quote, now: Instant)
    requires CleanOrder(data).Ok?
    ensures var out := PlaceOrder(catalog, p, data, quotes, now);
      var sym := Upper(Strip(data.symbol));
      var fetched := FetchStockPrice(quotes(sym));
      && (sym !in catalog ==> out == OrderOutcome(catalog, Err(UnknownSymbol)))
      && (sym in catalog && fetched.None? ==> out.catalog == catalog)
      && (sym in catalog && fetched.Some? ==>
            out.catalog[sym] == catalog[sym].(lastPrice := fetched, updatedAt := now))
      && (sym in catalog && out.catalog[sym].lastPrice.None? ==> out.result == Err(NoPriceAvailable))
  {
    PlaceOrderSteps(catalog, p, data, quotes, now);
  }

  /** The settlement part of a valid order request for a priced stock: a
      BUY is refused exactly when the cash does not cover price times
      quantity, a SELL exactly when too few shares are held. */
  lemma PlaceOrderSettlement(catalog: Catalog, p: Portfolio, data: OrderData, quotes: string -> Quote, now: Instant)
    requires CleanOrder(data).Ok?
    ensures var out := PlaceOrder(catalog, p, data, quotes, now);
      var sym := Upper(Strip(data.symbol));
      sym in catalog && out.catalog[sym].lastPrice.Some? ==>
        && (data.orderType == "BUY" ==>
              (out.result.Err? <==> p.cash < out.catalog[sym].lastPrice.value * data.quantity as real))
        && (data.orderType == "SELL" ==>
              (out.result.Err? <==> sym !in p.positions || p.positions[sym].quantity < data.quantity))
  {
    var sym := Upper(Strip(data.symbol));
    var priced := PriceOrder(catalog, sym, quotes, now);
    PlaceOrderSteps(catalog, p, data, quotes, now);
    if sym in catalog && priced.catalog[sym].lastPrice.Some? {
      assert priced.price == Ok(priced.catalog[sym].lastPrice.value);
    }
  }

  /** Lookup is exact after upper-casing: a stock whose key holds a
      lower-case letter is never touched by any order. */
  lemma LowerCaseStockUnreachable(catalog: Catalog, p: Portfolio, data: OrderData, quotes: string -> Quote, now: Instant, key: string)
    requires key in catalog && !NoLowerAscii(key)
    ensures var out := PlaceOrder(catalog, p, data, quotes, now);
            key in out.catalog && out.catalog[key] == catalog[key]
            && (out.result.Ok? ==> out.result.value.transactions[|p.transactions|].symbol != key)
  {
    var out := PlaceOrder(catalog, p, data, quotes, now);
    UpperNeverLower(Strip(data.symbol), key);
    assert out.catalog[key] == (out.catalog - {Upper(Strip(data.symbol))})[key];
  }

  /** A fetched price is saved on the stock before the order is checked, so
      it stays saved when the order is then refused. */
  lemma FetchedPriceKeptOnRejection(catalog: Catalog, p: Portfolio, data: OrderData, quotes: string -> Quote, now: Instant)
    requires CleanOrder(data).Ok?
    requires Upper(Strip(data.symbol)) in catalog
    requires FetchStockPrice(quotes(Upper(Strip(data.symbol)))).Some?
    ensures var out := PlaceOrder(catalog, p, data, quotes, now);
            && out.catalog[Upper(Strip(data.symbol))].lastPrice == FetchStockPrice(quotes(Upper(Strip(data.symbol))))
            && out.catalog[Upper(Strip(data.symbol))].updatedAt == now
            && (out.result.Err? ==> out.result.error == InsufficientFunds
                                    || out.result.error == NoHolding
                                    || out.result.error == InsufficientQuantity)
  {
  }

  /** Once priced, a BUY is refused exactly when the cash does not cover
      the stock's stored price times the quantity. */
  lemma PricedBuyRefusal(catalog: Catalog, p: Portfolio, sym: string, quantity: nat, quotes: string -> Quote, now: Instant)
    requires quantity >= 1 && sym in catalog
    ensures var priced := PriceOrder(catalog, sym, quotes, now);
            priced.catalog[sym].lastPrice.Some? ==>
              && priced.price == Ok(priced.catalog[sym].lastPrice.value)
              && (ExecuteBuy(p, sym, quantity, priced.price.value, now).Err? <==>
                    p.cash < priced.catalog[sym].lastPrice.value * quantity as real)
  {
  }

  /** A BUY is refused exactly when the cash does not cover the stock's
      price times the quantity, at the price the order was priced at. */
  lemma PlaceOrderBuyRefusal(catalog: Catalog, p: Portfolio, data: OrderData, quotes: string -> Quote, now: Instant)
    requires CleanOrder(data).Ok? && data.orderType == "BUY"
    requires Upper(Strip(data.symbol)) in catalog
    ensures var out := PlaceOrder(catalog, p, data, quotes, now);
            var stock := out.catalog[Upper(Strip(data.symbol))];
            stock.lastPrice.Some? ==>
              (out.result.Err? <==> p.cash < stock.lastPrice.value * data.quantity as real)
  {
    var order := CleanOrder(data).value;
    assert order.side == Buy by {
      assert TransactionTypeCode(order.side) == "BUY";
    }
    var sym := Upper(order.symbol);
    PricedBuyRefusal(catalog, p, sym, order.quantity, quotes, now);
  }

  // ---------------------------------------------------------------------
  // Interplay with the refresh gate

  /** The order handler saves the whole stock row when it fetches a price,
      which stamps the row; so after such an order the gate stays shut for
      one interval, although the sweep itself never stamps anything. */
  lemma OrderFetchClosesGate(catalog: Catalog, p: Portfolio, data: OrderData, quotes: string -> Quote, now: Instant, later: Instant)
    requires CleanOrder(data).Ok?
    requires Upper(Strip(data.symbol)) in catalog
    requires FetchStockPrice(quotes(Upper(Strip(data.symbol)))).Some?
    requires later <= now + AutoUpdateInterval
    ensures !Stale(PlaceOrder(catalog, p, data, quotes, now).catalog, later)
  {
    var out := PlaceOrder(catalog, p, data, quotes, now);
    assert out.catalog[Upper(Strip(data.symbol))].updatedAt == now;
  }

  // ---------------------------------------------------------------------
  // A worked history

  /** Opening cash 10000; buy 10 at 50; buy 10 more at 70 (average 60);
      sell all 20 at 80: the position is gone and cash is 10400. */
  lemma WorkedHistory()
    ensures var p0 := NewPortfolio();
            var p1 := ExecuteBuy(p0, "AAA", 10, 50.0, 1);
            && p1.Ok? && p1.value.cash == 9500.0 && p1.value.positions["AAA"] == Position(10, 50.0)
            && var p2 := ExecuteBuy(p1.value, "AAA", 10, 70.0, 2);
            && p2.Ok? && p2.value.cash == 8800.0 && p2.value.positions["AAA"] == Position(20, 60.0)
            && var p3 := ExecuteSell(p2.value, "AAA", 20, 80.0, 3);
            && p3.Ok? && p3.value.cash == 10400.0 && "AAA" !in p3.value.positions
  {
  }

  /** Withdrawing more than the balance is refused; withdrawing all of it is not. */
  lemma WithdrawalBoundary(p: Portfolio, note: string, now: Instant)
    ensures Withdraw(p, p.cash + 0.01, note, now) == Err(InsufficientFunds)
    ensures Withdraw(p, p.cash, note, now).Ok? && Withdraw(p, p.cash, note, now).value.cash == 0.0
  {
  }
}

=== FILE: models.dfy ===
/** The stored records of the market application: the shared stock catalog
    and one user's portfolio with its positions and histories. Money is an
    exact `real`; the database's fixed decimal places are not modelled. */
module Models {
  import opened Outcomes

  /** A point in time, counted in microseconds (the resolution of the stored datetimes). */
  type Instant = int

  /** Longest symbol a Stock row can hold. */
  const StockSymbolMaxLength: nat := 10

  /** Cash every new portfolio is opened with. */
  const InitialCash: real := 10000.0

  /** Currency a stock is created with when none is given. */
  const DefaultCurrency: string := "USD"

  /** A tracked stock. `lastPrice` is nullable; `updatedAt` is the row's
      last-save time, refreshed by every full save of the row. */
  datatype Stock = Stock(
    symbol: string,
    name: string,
    lastPrice: Option<real>,
    currency: string,
    updatedAt: Instant)

  /** The stock catalog. Symbols are unique, so the catalog is keyed by symbol. */
  type Catalog = map<string, Stock>

  predicate KeyedBySymbol(catalog: Catalog) {
    forall s :: s in catalog ==> catalog[s].symbol == s
  }

  /** No stored price is negative. The schema does not enforce this; the
      cash and cost-basis bounds below rely on it. */
  predicate PricesNonNegative(catalog: Catalog) {
    forall s :: s in catalog && catalog[s].lastPrice.Some? ==> catalog[s].lastPrice.value >= 0.0
  }

  /** A freshly created stock: no price yet, default currency. */
  function NewStock(symbol: string, name: string, now: Instant): (stock: Stock)
    requires |symbol| <= StockSymbolMaxLength
    ensures stock.symbol == symbol && stock.lastPrice.None? && stock.currency == "USD"
  {
    Stock(symbol, name, None, DefaultCurrency, now)
  }
  /** Adding a new stock under its own symbol keeps a catalog keyed by
      symbol with non-negative prices; the new stock's timestamp is its
      creation time. */
  lemma NewStockFitsCatalog(catalog: Catalog, symbol: string, name: string, now: Instant)
    requires |symbol| <= StockSymbolMaxLength
    requires KeyedBySymbol(catalog) && PricesNonNegative(catalog)
    ensures var c := catalog[symbol := NewStock(symbol, name, now)];
            KeyedBySymbol(c) && PricesNonNegative(c) && c[symbol].updatedAt == now
  {
  }


  /** A holding of one stock: a non-negative share count and its average cost. */
  datatype Position = Position(quantity: nat, avgPrice: real)

  datatype TransactionType = Buy | Sell

  /** An executed order. The stock is referred to by its unique symbol. */
  datatype Transaction = Transaction(
    symbol: string,
    kind: TransactionType,
    quantity: nat,
    price: real,
    createdAt: Instant)

  datatype CashOperationType = In | Out

  /** A deposit or a withdrawal; the note may be empty. */
  datatype CashOperation = CashOperation(
    kind: CashOperationType,
    amount: real,
    note: string,
    createdAt: Instant)

  /** One user's portfolio. At most one position per stock, so positions are
      keyed by symbol; both histories only ever grow at the end. */
  datatype Portfolio = Portfolio(
    cash: real,
    positions: map<string, Position>,
    transactions: seq<Transaction>,
    cashOperations: seq<CashOperation>)

  /** The code stored for a transaction type. */
  function TransactionTypeCode(t: TransactionType): string {
    match t
    case Buy => "BUY"
    case Sell => "SELL"
  }

  function ParseTransactionType(code: string): (r: Option<TransactionType>)
    ensures r.Some? <==> code == "BUY" || code == "SELL"
    ensures r.Some? ==> TransactionTypeCode(r.value) == code
  {
    if code == "BUY" then Some(Buy)
    else if code == "SELL" then Some(Sell)
    else None
  }

  /** The code stored for a cash operation type. */
  function CashOperationTypeCode(t: CashOperationType): string {
    match t
    case In => "IN"
    case Out => "OUT"
  }

  function ParseCashOperationType(code: string): (r: Option<CashOperationType>)
    ensures r.Some? <==> code == "IN" || code == "OUT"
    ensures r.Some? ==> CashOperationTypeCode(r.value) == code
  {
    if code == "IN" then Some(In)
    else if code == "OUT" then Some(Out)
    else None
  }

  /** Both type codes fit their columns (4 and 3 characters) and parse back. */
  lemma TypeCodesRoundTrip(t: TransactionType, c: CashOperationType)
    ensures |TransactionTypeCode(t)| <= 4 && ParseTransactionType(TransactionTypeCode(t)) == Some(t)
    ensures |CashOperationTypeCode(c)| <= 3 && ParseCashOperationType(CashOperationTypeCode(c)) == Some(c)
  {
  }

  /** The well-formedness every reachable portfolio keeps: cash is never
      negative, every stored position holds at least one share at a
      non-negative average cost, and every history record carries a
      positive quantity or amount. */
  predicate ValidPortfolio(p: Portfolio) {
    && p.cash >= 0.0
    && (forall s :: s in p.positions ==> p.positions[s].quantity >= 1 && p.positions[s].avgPrice >= 0.0)
    && (forall i :: 0 <= i < |p.transactions| ==> p.transactions[i].quantity >= 1)
    && (forall i :: 0 <= i < |p.cashOperations| ==> p.cashOperations[i].amount > 0.0)
  }

  /** Catalog and portfolio together: the catalog is keyed by symbol with
      non-negative prices and every position refers to a catalog stock. */
  predicate ValidState(catalog: Catalog, p: Portfolio) {
    && KeyedBySymbol(catalog)
    && PricesNonNegative(catalog)
    && p.positions.Keys <= catalog.Keys
    && ValidPortfolio(p)
  }

  /** A new portfolio: the opening cash, nothing held, no history. */
  function NewPortfolio(): (p: Portfolio)
    ensures ValidPortfolio(p)
    ensures p.cash == 10000.0 && |p.positions| == 0
    ensures |p.transactions| == 0 && |p.cashOperations| == 0
  {
    Portfolio(InitialCash, map[], [], [])
  }
}

=== FILE: outcomes.dfy ===
/** Failure-carrying values used across the model: an optional value and a
    success-or-rejection result. */
module Outcomes {

  /** A value that may be absent (a nullable column, a failed fetch). */
  datatype Option<+T> = None | Some(value: T)

  /** Either the new value produced by an operation or the reason it was refused. */
  datatype Result<+T, +E> = Ok(value: T) | Err(error: E)
}

=== FILE: services.dfy ===
/** Market-data services: the price fetch (an oracle), the catalog-wide
    price sweep and the one-minute refresh gate in front of it. */
module Services {
  import opened Outcomes
  import opened Models

  /** What the market-data library gives back for one symbol: it raised,
      or it answered with the day's closing prices (possibly none). */
  datatype Quote = Raised | History(closes: seq<real>)

  /** The fetch never fails outward: an exception or an empty history is
      "no price", otherwise the last close is the price. */
  function FetchStockPrice(quote: Quote): (price: Option<real>)
    ensures price.None? <==> quote.Raised? || |quote.closes| == 0
    ensures price.Some? ==> price.value == quote.closes[|quote.closes| - 1]
  {
    match quote
    case Raised => None
    case History(closes) => if |closes| == 0 then None else Some(closes[|closes| - 1])
  }

  /** Every answer the oracle gives is a non-negative price. */
  ghost predicate QuotesNonNegative(quotes: string -> Quote) {
    forall s :: FetchStockPrice(quotes(s)).Some? ==> FetchStockPrice(quotes(s)).value >= 0.0
  }

  /** Minutes between two refreshes. */
  const AutoUpdateIntervalMinutes: int := 1

  const MicrosecondsPerMinute: int := 60 * 1000 * 1000

  /** The refresh interval in microseconds. */
  const AutoUpdateInterval: int := AutoUpdateIntervalMinutes * MicrosecondsPerMinute

  /** The gate, on the current time and the newest stored timestamp. */
  function ShouldRefresh(now: Instant, lastUpdate: Option<Instant>): (fire: bool)
    ensures fire <==> lastUpdate.None? || now - lastUpdate.value > MicrosecondsPerMinute
  {
    lastUpdate.None? || lastUpdate.value < now - AutoUpdateInterval
  }

  /** `last` is what the Max aggregate over the catalog's `updatedAt`
      returns: nothing for an empty catalog, otherwise the largest value. */
  ghost predicate IsLatestUpdate(catalog: Catalog, last: Option<Instant>) {
    match last
    case None => catalog.Keys == {}
    case Some(t) =>
      && (exists s :: s in catalog && catalog[s].updatedAt == t)
      && (forall s :: s in catalog ==> catalog[s].updatedAt <= t)
  }

  /** Every stock was last saved more than one interval before `now`. */
  ghost predicate Stale(catalog: Catalog, now: Instant) {
    forall s :: s in catalog ==> catalog[s].updatedAt < now - AutoUpdateInterval
  }

  /** The gate on the aggregate fires exactly when the whole catalog is stale. */
  lemma ShouldRefreshIffStale(catalog: Catalog, now: Instant, last: Option<Instant>)
    requires IsLatestUpdate(catalog, last)
    ensures ShouldRefresh(now, last) <==> Stale(catalog, now)
  {
    if last.Some? {
      var s :| s in catalog && catalog[s].updatedAt == last.value;
    }
  }

  /** The boundary is strict: a timestamp exactly one interval old holds
      the gate shut, one microsecond older opens it. */
  lemma GateIsStrict(now: Instant)
    ensures !ShouldRefresh(now, Some(now - 60_000_000))
    ensures ShouldRefresh(now, Some(now - 60_000_001))
    ensures ShouldRefresh(now, None)
  {
  }

  /** The Max aggregate over the catalog's timestamps. */
  method LatestUpdate(catalog: Catalog) returns (last: Option<Instant>)
    ensures IsLatestUpdate(catalog, last)
  {
    last := None;
    var remaining := catalog.Keys;
    while remaining != {}
      invariant remaining <= catalog.Keys
      invariant last.None? <==> remaining == catalog.Keys
      invariant last.Some? ==> exists s :: s in catalog.Keys - remaining && catalog[s].updatedAt == last.value
      invariant forall s :: s in catalog.Keys - remaining ==> last.Some? && catalog[s].updatedAt <= last.value
      decreases remaining
    {
      var s :| s in remaining;
      var t := catalog[s].updatedAt;
      if last.None? || last.value < t {
        last := Some(t);
      }
      remaining := remaining - {s};
    }
  }

  /** One stock after the sweep: only the price column is written, and only
      when the fetch answered; the timestamp is not touched. */
  function WithSweptPrice(stock: Stock, fetched: Option<real>): (r: Stock)
    ensures r.symbol == stock.symbol && r.name == stock.name
    ensures r.currency == stock.currency && r.updatedAt == stock.updatedAt
    ensures fetched.Some? ==> r.lastPrice == fetched
    ensures fetched.None? ==> r == stock
  {
    match fetched
    case Some(price) => stock.(lastPrice := Some(price))
    case None => stock
  }

  /** The catalog after a sweep, stock by stock. */
  function SweptCatalog(catalog: Catalog, quotes: string -> Quote): (swept: Catalog)
    ensures swept.Keys == catalog.Keys
    ensures forall s :: s in catalog ==>
      var fetched := FetchStockPrice(quotes(catalog[s].symbol));
      && swept[s].symbol == catalog[s].symbol
      && swept[s].name == catalog[s].name
      && swept[s].currency == catalog[s].currency
      && swept[s].updatedAt == catalog[s].updatedAt
      && (fetched.Some? ==> swept[s].lastPrice == fetched)
      && (fetched.None? ==> swept[s] == catalog[s])
  {
    map s | s in catalog :: WithSweptPrice(catalog[s], FetchStockPrice(quotes(catalog[s].symbol)))
  }

  /** The sweep: fetch every stock in turn, write the price where the fetch
      answered, and report the time taken at its start. */
  method UpdateAllStockPrices(catalog: Catalog, quotes: string -> Quote, now: Instant)
    returns (updated: Catalog, stamp: Instant)
    ensures stamp == now
    ensures updated.Keys == catalog.Keys
    ensures forall s :: s in catalog ==>
      updated[s] == WithSweptPrice(catalog[s], FetchStockPrice(quotes(catalog[s].symbol)))
  {
    updated := catalog;
    var remaining := catalog.Keys;
    while remaining != {}
      invariant remaining <= catalog.Keys
      invariant updated.Keys == catalog.Keys
      invariant forall s :: s in remaining ==> updated[s] == catalog[s]
      invariant forall s :: s in catalog.Keys - remaining ==>
        updated[s] == WithSweptPrice(catalog[s], FetchStockPrice(quotes(catalog[s].symbol)))
      decreases remaining
    {
      var s :| s in remaining;
      var stock := updated[s];
      var price := FetchStockPrice(quotes(stock.symbol));
      if price.Some? {
        updated := updated[s := stock.(lastPrice := price)];
      }
      remaining := remaining - {s};
    }
    stamp := now;
  }

  /** The gate in front of the sweep. `now` is read on entry; `sweepNow`
      is the time the sweep reads when it starts. */
  method AutoUpdatePricesIfNeeded(catalog: Catalog, now: Instant, sweepNow: Instant, quotes: string -> Quote)
    returns (justUpdated: bool, lastUpdate: Option<Instant>, after: Catalog)
    ensures justUpdated <==> Stale(catalog, now)
    ensures justUpdated ==> lastUpdate == Some(sweepNow) && after == SweptCatalog(catalog, quotes)
    ensures !justUpdated ==> && after == catalog
                             && IsLatestUpdate(catalog, lastUpdate)
                             && lastUpdate.Some?
                             && lastUpdate.value >= now - AutoUpdateInterval
  {
    var last := LatestUpdate(catalog);
    ShouldRefreshIffStale(catalog, now, last);
    if ShouldRefresh(now, last) {
      var updated, stamp := UpdateAllStockPrices(catalog, quotes, sweepNow);
      return true, Some(stamp), updated;
    }
    return false, last, catalog;
  }

  /** The sweep keeps every timestamp, so a catalog stale at `now` is still
      stale at any later time: the sweep alone never shuts the gate. */
  lemma SweepKeepsGateOpen(catalog: Catalog, quotes: string -> Quote, now: Instant, later: Instant)
    requires Stale(catalog, now)
    requires now <= later
    ensures Stale(SweptCatalog(catalog, quotes), later)
  {
  }

  /** Sweeping twice with the same answers is sweeping once. */
  lemma SweepIdempotent(catalog: Catalog, quotes: string -> Quote)
    ensures SweptCatalog(SweptCatalog(catalog, quotes), quotes) == SweptCatalog(catalog, quotes)
  {
  }

  /** The sweep keeps the catalog keyed by symbol and, for non-negative
      answers, keeps prices non-negative. */
  lemma SweepPreservesCatalog(catalog: Catalog, quotes: string -> Quote)
    requires KeyedBySymbol(catalog) && PricesNonNegative(catalog)
    requires QuotesNonNegative(quotes)
    ensures KeyedBySymbol(SweptCatalog(catalog, quotes))
    ensures PricesNonNegative(SweptCatalog(catalog, quotes))
  {
    var swept := SweptCatalog(catalog, quotes);
    forall s | s in swept && swept[s].lastPrice.Some?
      ensures swept[s].lastPrice.value >= 0.0
    {
      var fetched := FetchStockPrice(quotes(catalog[s].symbol));
      if fetched.Some? {
        assert swept[s].lastPrice.value == fetched.value;
      }
    }
  }
}

=== FILE: sums.dfy ===
/** Sums over a finite set of symbols, independent of the order in which a
    query happens to return them. */
module Sums {

  /** Some element of a non-empty set. */
  ghost function Pick(keys: set<string>): (k: string)
    requires keys != {}
    ensures k in keys
  {
    var k :| k in keys; k
  }

  /** The sum of `f` over `keys`. */
  ghost function SetSum(keys: set<string>, f: string -> real): real
    decreases keys
  {
    if keys == {} then 0.0
    else
      var k := Pick(keys);
      f(k) + SetSum(keys - {k}, f)
  }

  /** Any element can be taken out first: the sum does not depend on the
      order of the elements. */
  lemma {:induction false} SetSumRemove(keys: set<string>, f: string -> real, k: string)
    requires k in keys
    ensures SetSum(keys, f) == f(k) + SetSum(keys - {k}, f)
    decreases keys
  {
    var p := Pick(keys);
    if p != k {
      SetSumRemove(keys - {p}, f, k);
      SetSumRemove(keys - {k}, f, p);
      assert keys - {p} - {k} == keys - {k} - {p};
    }
  }

  /** Functions that agree on `keys` have the same sum over it. */
  lemma {:induction false} SetSumCongruent(keys: set<string>, f: string -> real, g: string -> real)
    requires forall k :: k in keys ==> f(k) == g(k)
    ensures SetSum(keys, f) == SetSum(keys, g)
    decreases keys
  {
    if keys != {} {
      var p := Pick(keys);
      SetSumCongruent(keys - {p}, f, g);
    }
  }

  /** Adding a new key adds its contribution. */
  lemma SetSumAdd(keys: set<string>, f: string -> real, k: string)
    requires k !in keys
    ensures SetSum(keys + {k}, f) == SetSum(keys, f) + f(k)
  {
    SetSumRemove(keys + {k}, f, k);
    assert keys + {k} - {k} == keys;
  }

  /** The sum splits into one key's contribution and the rest. */
  lemma SetSumSplit(keys: set<string>, f: string -> real, k: string)
    ensures SetSum(keys, f) == (if k in keys then f(k) else 0.0) + SetSum(keys - {k}, f)
  {
    if k in keys {
      SetSumRemove(keys, f, k);
    } else {
      assert keys == keys - {k};
    }
  }

  /** Changing one key's contribution (adding, removing or rewriting it)
      changes the sum by exactly that contribution's difference. */
  lemma SetSumUpdate(keys: set<string>, keys': set<string>, f: string -> real, g: string -> real, k: string)
    requires keys' - {k} == keys - {k}
    requires forall x :: x in keys && x != k ==> f(x) == g(x)
    ensures SetSum(keys', g) - SetSum(keys, f)
         == (if k in keys' then g(k) else 0.0) - (if k in keys then f(k) else 0.0)
  {
    SetSumCongruent(keys - {k}, f, g);
    SetSumSplit(keys, f, k);
    SetSumSplit(keys', g, k);
  }
}

=== FILE: text.dfy ===
/** Text handling of form input: the whitespace stripping every text field
    applies, and the upper-casing of order symbols. Only the ASCII letters
    are upper-cased; every other character is left as it is. */
module Text {

  /** The characters Python's `str.isspace` accepts, which are the ones
      `str.strip()` removes. */
  predicate IsSpace(c: char) {
    var n := c as int;
    || n == 0x20 || 0x09 <= n <= 0x0D || 0x1C <= n <= 0x1F
    || n == 0x85 || n == 0xA0 || n == 0x1680 || 0x2000 <= n <= 0x200A
    || n == 0x2028 || n == 0x2029 || n == 0x202F || n == 0x205F || n == 0x3000
  }

  predicate AllSpace(s: string) {
    forall i :: 0 <= i < |s| ==> IsSpace(s[i])
  }

  /** `s` neither starts nor ends with whitespace. */
  predicate Trimmed(s: string) {
    |s| == 0 || (!IsSpace(s[0]) && !IsSpace(s[|s| - 1]))
  }

  /** How many whitespace characters `s` starts with. */
  function LeadingSpace(s: string): (n: nat)
    ensures n <= |s|
  {
    if |s| == 0 || !IsSpace(s[0]) then 0 else 1 + LeadingSpace(s[1..])
  }

  /** The first `LeadingSpace(s)` characters are whitespace and the next
      one, if any, is not. */
  lemma {:induction false} LeadingSpaceShape(s: string)
    ensures AllSpace(s[..LeadingSpace(s)])
    ensures LeadingSpace(s) < |s| ==> !IsSpace(s[LeadingSpace(s)])
    decreases |s|
  {
    if |s| > 0 && IsSpace(s[0]) {
      var k := LeadingSpace(s[1..]);
      LeadingSpaceShape(s[1..]);
      assert s[..k + 1] == [s[0]] + s[1..][..k];
    }
  }

  /** `s` without its trailing whitespace; a prefix of `s`. */
  function StripEnd(s: string): (r: string)
    ensures |r| <= |s| && r == s[..|r|]
  {
    if |s| == 0 || !IsSpace(s[|s| - 1]) then s else StripEnd(s[..|s| - 1])
  }

  /** What `StripEnd` removes is whitespace, and what it keeps does not end
      with whitespace. */
  lemma {:induction false} StripEndShape(s: string)
    ensures AllSpace(s[|StripEnd(s)|..])
    ensures |StripEnd(s)| == 0 || !IsSpace(StripEnd(s)[|StripEnd(s)| - 1])
    decreases |s|
  {
    if |s| > 0 && IsSpace(s[|s| - 1]) {
      var r := StripEnd(s[..|s| - 1]);
      StripEndShape(s[..|s| - 1]);
      assert s[|r|..] == s[..|s| - 1][|r|..] + [s[|s| - 1]];
    }
  }

  /** What a text field keeps of its input: `s` without leading and
      trailing whitespace, which is a contiguous part of `s`. */
  function Strip(s: string): (r: string)
    ensures LeadingSpace(s) + |r| <= |s|
    ensures r == s[LeadingSpace(s)..LeadingSpace(s) + |r|]
  {
    StripEnd(s[LeadingSpace(s)..])
  }

  /** The stripped text neither starts nor ends with whitespace, and what
      lies on either side of it in `s` is whitespace. */
  lemma StripShape(s: string)
    ensures Trimmed(Strip(s))
    ensures AllSpace(s[..LeadingSpace(s)])
    ensures AllSpace(s[LeadingSpace(s) + |Strip(s)|..])
  {
    var n := LeadingSpace(s);
    var r := Strip(s);
    LeadingSpaceShape(s);
    StripEndShape(s[n..]);
    assert s[n..][|r|..] == s[n + |r|..];
    if |r| > 0 {
      assert r[0] == s[n];
    }
  }

  /** Whitespace before a string that does not start with whitespace is
      exactly its leading whitespace. */
  lemma {:induction false} LeadingSpaceOfPadded(a: string, t: string)
    requires AllSpace(a)
    requires |t| == 0 || !IsSpace(t[0])
    ensures LeadingSpace(a + t) == |a|
    decreases |a|
  {
    if |a| > 0 {
      assert (a + t)[1..] == a[1..] + t;
      LeadingSpaceOfPadded(a[1..], t);
    } else {
      assert a + t == t;
    }
  }

  /** Whitespace after a string that does not end with whitespace is
      exactly what `StripEnd` removes. */
  lemma {:induction false} StripEndPadded(m: string, b: string)
    requires |m| == 0 || !IsSpace(m[|m| - 1])
    requires AllSpace(b)
    ensures StripEnd(m + b) == m
    decreases |b|
  {
    if |b| > 0 {
      assert (m + b)[..|m + b| - 1] == m + b[..|b| - 1];
      StripEndPadded(m, b[..|b| - 1]);
    } else {
      assert m + b == m;
    }
  }

  /** Stripping gives back the middle of any whitespace-padded string whose
      middle neither starts nor ends with whitespace. */
  lemma StripUnique(a: string, m: string, b: string)
    requires AllSpace(a) && AllSpace(b) && Trimmed(m)
    ensures Strip(a + m + b) == m
  {
    var s := a + m + b;
    if |m| == 0 {
      assert s == (a + b) + [];
      LeadingSpaceOfPadded(a + b, []);
      StripEndPadded([], []);
    } else {
      assert s == a + (m + b);
      LeadingSpaceOfPadded(a, m + b);
      assert s[|a|..] == m + b;
      StripEndPadded(m, b);
    }
  }

  /** Stripping twice is stripping once. */
  lemma StripIdempotent(s: string)
    ensures Strip(Strip(s)) == Strip(s)
  {
    StripShape(s);
    StripUnique([], Strip(s), []);
    assert [] + Strip(s) + [] == Strip(s);
  }

  /** A field is blank after stripping exactly when it was all whitespace. */
  lemma StripBlank(s: string)
    ensures Strip(s) == [] <==> AllSpace(s)
  {
    var n := LeadingSpace(s);
    StripShape(s);
    LeadingSpaceShape(s);
    if Strip(s) == [] {
      assert n == |s|;
      assert s[..n] == s;
    } else {
      assert Strip(s)[0] == s[n];
    }
  }

  predicate IsLowerAscii(c: char) {
    'a' <= c <= 'z'
  }

  /** True when no character of `s` is a lower-case ASCII letter. */
  predicate NoLowerAscii(s: string) {
    forall i :: 0 <= i < |s| ==> !IsLowerAscii(s[i])
  }

  function UpperChar(c: char): (u: char)
    ensures !IsLowerAscii(u)
    ensures IsLowerAscii(c) ==> u as int + 32 == c as int
    ensures !IsLowerAscii(c) ==> u == c
  {
    if IsLowerAscii(c) then (c as int - 32) as char else c
  }

  /** The symbol as the order handler looks it up: every letter upper-cased. */
  function Upper(s: string): (r: string)
    ensures |r| == |s|
    ensures forall i :: 0 <= i < |s| ==> r[i] == UpperChar(s[i])
    ensures NoLowerAscii(r)
  {
    if |s| == 0 then [] else [UpperChar(s[0])] + Upper(s[1..])
  }

  /** A string with no lower-case letters is its own upper-case form. */
  lemma UpperFixesUpperCase(s: string)
    requires NoLowerAscii(s)
    ensures Upper(s) == s
  {
  }

  /** Upper-casing twice is upper-casing once. */
  lemma UpperIdempotent(s: string)
    ensures Upper(Upper(s)) == Upper(s)
  {
    UpperFixesUpperCase(Upper(s));
  }

  /** Upper-casing distributes over concatenation. */
  lemma {:induction false} UpperAppend(x: string, y: string)
    ensures Upper(x + y) == Upper(x) + Upper(y)
    decreases |x|
  {
    if |x| == 0 {
      assert x + y == y;
    } else {
      assert (x + y)[1..] == x[1..] + y;
      UpperAppend(x[1..], y);
    }
  }

  /** Upper-casing never produces a NUL character from anything else. */
  lemma UpperKeepsNul(s: string)
    ensures '\0' in Upper(s) <==> '\0' in s
  {
    if '\0' in Upper(s) {
      var i :| 0 <= i < |s| && Upper(s)[i] == '\0';
      assert UpperChar(s[i]) == '\0';
    }
    if '\0' in s {
      var i :| 0 <= i < |s| && s[i] == '\0';
      assert Upper(s)[i] == '\0';
    }
  }

  /** Upper-casing whitespace changes nothing. */
  lemma UpperOfSpace(s: string)
    requires AllSpace(s)
    ensures Upper(s) == s
  {
    UpperFixesUpperCase(s);
  }

  /** Upper-casing keeps a string trimmed. */
  lemma UpperKeepsTrimmed(s: string)
    requires Trimmed(s)
    ensures Trimmed(Upper(s))
  {
    if |s| > 0 {
      assert Upper(s)[0] == UpperChar(s[0]);
      assert Upper(s)[|s| - 1] == UpperChar(s[|s| - 1]);
    }
  }

  /** Upper-casing leaves whitespace alone, so it makes no difference
      whether a symbol is stripped before or after it is upper-cased. */
  lemma StripUpperCommute(s: string)
    ensures Strip(Upper(s)) == Upper(Strip(s))
  {
    var n := LeadingSpace(s);
    var m := Strip(s);
    var a := s[..n];
    var b := s[n + |m|..];
    StripShape(s);
    assert s == a + m + b;
    UpperAppend(a + m, b);
    UpperAppend(a, m);
    UpperOfSpace(a);
    UpperOfSpace(b);
    UpperKeepsTrimmed(m);
    assert Upper(s) == a + Upper(m) + b;
    StripUnique(a, Upper(m), b);
  }

  /** A string holding a lower-case letter is never the upper-case form of anything. */
  lemma UpperNeverLower(s: string, t: string)
    requires !NoLowerAscii(t)
    ensures Upper(s) != t
  {
  }
}

=== FILE: valuation.dfy ===
/** Read-side valuation of a portfolio: per-position value and gain, and the
    portfolio totals. Nothing here changes the catalog or the portfolio. */
module Valuation {
  import opened Outcomes
  import opened Models
  import opened Sums

  /** A stored price counts only when present and non-zero (a zero price is
      falsy and falls through, like a missing one). */
  predicate Truthy(price: Option<real>) {
    price.Some? && price.value != 0.0
  }

  /** The price a position is valued at: the stock's last price, else the
      average cost, else zero. */
  function EffectivePrice(lastPrice: Option<real>, avgPrice: real): (eff: real)
    ensures Truthy(lastPrice) ==> eff == lastPrice.value
    ensures !Truthy(lastPrice) ==> eff == avgPrice
  {
    if Truthy(lastPrice) then lastPrice.value
    else if avgPrice != 0.0 then avgPrice
    else 0.0
  }

  /** One valued position, as shown to the user. */
  datatype PositionRow = PositionRow(
    symbol: string,
    quantity: nat,
    avgPrice: real,
    effectivePrice: real,
    value: real,
    gain: real,
    gainPercent: real)

  /** The row for one position of `stock`. */
  function RowFor(stock: Stock, pos: Position): (row: PositionRow)
    ensures row.symbol == stock.symbol && row.quantity == pos.quantity && row.avgPrice == pos.avgPrice
    ensures row.effectivePrice == EffectivePrice(stock.lastPrice, pos.avgPrice)
  {
    var eff := EffectivePrice(stock.lastPrice, pos.avgPrice);
    var avg := if pos.avgPrice != 0.0 then pos.avgPrice else 0.0;
    var gainPercent := if avg > 0.0 then (eff - avg) / avg * 100.0 else 0.0;
    PositionRow(stock.symbol, pos.quantity, pos.avgPrice, eff,
                eff * pos.quantity as real, (eff - avg) * pos.quantity as real, gainPercent)
  }

  /** A row's value is the effective price times the shares; it splits
      into cost basis plus gain; the percentage is the gain over the cost
      basis (zero when the average cost is not positive). */
  lemma RowArithmetic(stock: Stock, pos: Position)
    ensures var row := RowFor(stock, pos);
      && row.value == row.effectivePrice * pos.quantity as real
      && row.value - row.gain == pos.avgPrice * pos.quantity as real
      && (pos.avgPrice > 0.0 && pos.quantity >= 1 ==>
            row.gainPercent * pos.avgPrice * pos.quantity as real == row.gain * 100.0)
      && (pos.avgPrice <= 0.0 ==> row.gainPercent == 0.0)
  {
    var row := RowFor(stock, pos);
    var q := pos.quantity as real;
    if pos.avgPrice > 0.0 && pos.quantity >= 1 {
      var d := row.effectivePrice - pos.avgPrice;
      assert row.gainPercent == d / pos.avgPrice * 100.0;
      assert row.gainPercent * pos.avgPrice == d * 100.0;
      assert row.gain == d * q;
    }
  }

  /** The value contributed by `symbol` (zero when it is not a held, catalogued stock). */
  function ValueOf(catalog: Catalog, positions: map<string, Position>, symbol: string): real {
    if symbol in positions && symbol in catalog then RowFor(catalog[symbol], positions[symbol]).value else 0.0
  }

  /** The gain contributed by `symbol` (zero when it is not a held, catalogued stock). */
  function GainOf(catalog: Catalog, positions: map<string, Position>, symbol: string): real {
    if symbol in positions && symbol in catalog then RowFor(catalog[symbol], positions[symbol]).gain else 0.0
  }

  function ValueFn(catalog: Catalog, positions: map<string, Position>): string -> real {
    s => ValueOf(catalog, positions, s)
  }

  function GainFn(catalog: Catalog, positions: map<string, Position>): string -> real {
    s => GainOf(catalog, positions, s)
  }

  /** Value of everything held. */
  ghost function PositionsValue(catalog: Catalog, p: Portfolio): real {
    SetSum(p.positions.Keys, ValueFn(catalog, p.positions))
  }

  /** Cash plus the value of everything held. */
  ghost function TotalValue(catalog: Catalog, p: Portfolio): real {
    p.cash + PositionsValue(catalog, p)
  }

  /** Unrealised gain over everything held. */
  ghost function TotalGain(catalog: Catalog, p: Portfolio): real {
    SetSum(p.positions.Keys, GainFn(catalog, p.positions))
  }

  /** True when no symbol occurs twice in `syms`. */
  predicate Distinct(syms: seq<string>) {
    forall i, j :: 0 <= i < j < |syms| ==> syms[i] != syms[j]
  }

  /** The rows of the positions named by `syms`, in that order. */
  function RowsOf(catalog: Catalog, positions: map<string, Position>, syms: seq<string>): (rows: seq<PositionRow>)
    requires forall i :: 0 <= i < |syms| ==> syms[i] in positions && syms[i] in catalog
    ensures |rows| == |syms|
  {
    if |syms| == 0 then []
    else
      var last := syms[|syms| - 1];
      RowsOf(catalog, positions, syms[..|syms| - 1]) + [RowFor(catalog[last], positions[last])]
  }

  /** Each row of `RowsOf` is the row of the symbol at the same place. */
  lemma {:induction false} RowsOfAt(catalog: Catalog, positions: map<string, Position>, syms: seq<string>, i: int)
    requires forall k :: 0 <= k < |syms| ==> syms[k] in positions && syms[k] in catalog
    requires 0 <= i < |syms|
    ensures RowsOf(catalog, positions, syms)[i] == RowFor(catalog[syms[i]], positions[syms[i]])
    decreases |syms|
  {
    if i < |syms| - 1 {
      RowsOfAt(catalog, positions, syms[..|syms| - 1], i);
    }
  }

  /** Distinct symbols that make up `keys` are as many as the keys. */
  lemma {:induction false} DistinctCount(syms: seq<string>, keys: set<string>)
    requires Distinct(syms)
    requires forall i :: 0 <= i < |syms| ==> syms[i] in keys
    requires forall s :: s in keys ==> s in syms
    ensures |syms| == |keys|
    decreases |syms|
  {
    if |syms| > 0 {
      var last := syms[|syms| - 1];
      var front := syms[..|syms| - 1];
      forall s | s in keys - {last}
        ensures s in front
      {
        var i :| 0 <= i < |syms| && syms[i] == s;
        assert front[i] == s;
      }
      DistinctCount(front, keys - {last});
    }
  }

  /** What the valuation loop keeps: `visited` lists, once each, the
      positions not in `remaining`; `rows` are their rows in that order; the
      two running totals are the sums over them. */
  ghost predicate Visit(catalog: Catalog, p: Portfolio, remaining: set<string>, visited: seq<string>,
                        rows: seq<PositionRow>, value: real, gain: real)
    requires p.positions.Keys <= catalog.Keys
  {
    && remaining <= p.positions.Keys
    && (forall i :: 0 <= i < |visited| ==> visited[i] in p.positions && visited[i] !in remaining)
    && (forall s :: s in p.positions && s !in remaining ==> s in visited)
    && Distinct(visited)
    && rows == RowsOf(catalog, p.positions, visited)
    && value == SetSum(p.positions.Keys - remaining, ValueFn(catalog, p.positions))
    && gain == SetSum(p.positions.Keys - remaining, GainFn(catalog, p.positions))
  }

  /** Visiting one more position keeps the loop's invariant. */
  lemma VisitStep(catalog: Catalog, p: Portfolio, remaining: set<string>, visited: seq<string>,
                  rows: seq<PositionRow>, value: real, gain: real, s: string)
    requires p.positions.Keys <= catalog.Keys
    requires Visit(catalog, p, remaining, visited, rows, value, gain)
    requires s in remaining
    ensures var row := RowFor(catalog[s], p.positions[s]);
      Visit(catalog, p, remaining - {s}, visited + [s], rows + [row], value + row.value, gain + row.gain)
  {
    var done := p.positions.Keys - remaining;
    SetSumAdd(done, ValueFn(catalog, p.positions), s);
    SetSumAdd(done, GainFn(catalog, p.positions), s);
    assert p.positions.Keys - (remaining - {s}) == done + {s};
    assert (visited + [s])[..|visited|] == visited;
  }

  /** Once nothing remains, the rows list every position once and the
      running totals are the totals. */
  lemma VisitDone(catalog: Catalog, p: Portfolio, visited: seq<string>,
                  rows: seq<PositionRow>, value: real, gain: real)
    requires KeyedBySymbol(catalog)
    requires p.positions.Keys <= catalog.Keys
    requires Visit(catalog, p, {}, visited, rows, value, gain)
    ensures |rows| == |p.positions|
    ensures forall i :: 0 <= i < |rows| ==>
      rows[i].symbol in p.positions && rows[i] == RowFor(catalog[rows[i].symbol], p.positions[rows[i].symbol])
    ensures forall i, j :: 0 <= i < j < |rows| ==> rows[i].symbol != rows[j].symbol
    ensures value == PositionsValue(catalog, p) && gain == TotalGain(catalog, p)
  {
    assert p.positions.Keys - {} == p.positions.Keys;
    DistinctCount(visited, p.positions.Keys);
    forall i | 0 <= i < |rows|
      ensures rows[i].symbol == visited[i] && rows[i] == RowFor(catalog[visited[i]], p.positions[visited[i]])
    {
      RowsOfAt(catalog, p.positions, visited, i);
    }
  }

  /** The valuation: one row per position, in whatever order the positions
      are visited, and the three totals. Every position's stock must be in
      the catalog (the foreign key guarantees it). */
  method ComputePortfolioTotals(catalog: Catalog, p: Portfolio)
    returns (rows: seq<PositionRow>, totalPositionsValue: real, totalValue: real, totalGain: real)
    requires KeyedBySymbol(catalog)
    requires p.positions.Keys <= catalog.Keys
    ensures |rows| == |p.positions|
    ensures forall i :: 0 <= i < |rows| ==>
      rows[i].symbol in p.positions && rows[i] == RowFor(catalog[rows[i].symbol], p.positions[rows[i].symbol])
    ensures forall i, j :: 0 <= i < j < |rows| ==> rows[i].symbol != rows[j].symbol
    ensures totalPositionsValue == PositionsValue(catalog, p)
    ensures totalValue == TotalValue(catalog, p)
    ensures totalGain == TotalGain(catalog, p)
  {
    ghost var visited: seq<string> := [];
    rows := [];
    totalPositionsValue, totalGain := 0.0, 0.0;
    var remaining := p.positions.Keys;
    while remaining != {}
      invariant Visit(catalog, p, remaining, visited, rows, totalPositionsValue, totalGain)
      decreases remaining
    {
      var s :| s in remaining;
      var row := RowFor(catalog[s], p.positions[s]);
      VisitStep(catalog, p, remaining, visited, rows, totalPositionsValue, totalGain, s);
      visited := visited + [s];
      rows := rows + [row];
      totalPositionsValue := totalPositionsValue + row.value;
      totalGain := totalGain + row.gain;
      remaining := remaining - {s};
    }
    VisitDone(catalog, p, visited, rows, totalPositionsValue, totalGain);
    totalValue := p.cash + totalPositionsValue;
  }
}

=== FILE: valuation_facts.dfy ===
/** Properties of the valuation, alone and across ledger operations. */
module ValuationFacts {
  import opened Outcomes
  import opened Text
  import opened Models
  import opened Forms
  import opened Services
  import opened Sums
  import opened Ledger
  import opened Valuation

  /** Value of what `held` contributes at `stock`'s price (zero when nothing is held). */
  function HeldValue(stock: Stock, held: Option<Position>): real {
    if held.Some? then RowFor(stock, held.value).value else 0.0
  }

  /** Gain of what `held` contributes at `stock`'s price (zero when nothing is held). */
  function HeldGain(stock: Stock, held: Option<Position>): real {
    if held.Some? then RowFor(stock, held.value).gain else 0.0
  }

  /** Without a usable market price a position is valued at its cost: it
      shows no gain and a zero percentage. */
  lemma NoMarketPriceNoGain(stock: Stock, pos: Position)
    requires !Truthy(stock.lastPrice)
    ensures RowFor(stock, pos).effectivePrice == pos.avgPrice
    ensures RowFor(stock, pos).gain == 0.0 && RowFor(stock, pos).gainPercent == 0.0
    ensures RowFor(stock, pos).value == pos.avgPrice * pos.quantity as real
  {
  }

  /** A new portfolio is worth its opening cash and shows no gain. */
  lemma NewPortfolioWorth(catalog: Catalog)
    ensures TotalValue(catalog, NewPortfolio()) == 10000.0
    ensures TotalGain(catalog, NewPortfolio()) == 0.0
  {
  }

  /** One position, bought into at the market price: its value grows by
      what was paid and its gain does not move. */
  lemma BuyAtMarketRow(stock: Stock, held: Option<Position>, quantity: nat, price: real)
    requires quantity >= 1
    requires stock.lastPrice == Some(price) && price != 0.0
    ensures HeldValue(stock, Some(Blend(held, quantity, price))) - HeldValue(stock, held) == price * quantity as real
    ensures HeldGain(stock, Some(Blend(held, quantity, price))) == HeldGain(stock, held)
  {
    var pos := Blend(held, quantity, price);
    AtMarketHeld(stock, held, price);
    AtMarketHeld(stock, Some(pos), price);
    Distribute(price, HeldQuantity(held) as real, quantity as real);
  }

  /** What a holding contributes at the market price: price times its shares,
      with gain that value less its cost basis. */
  lemma AtMarketHeld(stock: Stock, held: Option<Position>, price: real)
    requires stock.lastPrice == Some(price) && price != 0.0
    ensures HeldValue(stock, held) == price * HeldQuantity(held) as real
    ensures HeldGain(stock, held) == price * HeldQuantity(held) as real - CostOf(held)
  {
    if held.Some? {
      var pos := held.value;
      var n := pos.quantity as real;
      AtMarketRow(stock, pos, price);
      assert (price - pos.avgPrice) * n == price * n - pos.avgPrice * n;
    }
  }

  lemma Distribute(price: real, n: real, q: real)
    ensures price * (n + q) == price * n + price * q
  {
  }

  /** A position of `quantity` shares at the market price: worth price times
      shares, with gain (price - average) times shares. */
  lemma AtMarketRow(stock: Stock, pos: Position, price: real)
    requires stock.lastPrice == Some(price) && price != 0.0
    ensures RowFor(stock, pos).value == price * pos.quantity as real
    ensures RowFor(stock, pos).gain == (price - pos.avgPrice) * pos.quantity as real
  {
  }

  /** One position, sold from at the market price: its value falls by the
      proceeds and its gain falls by the gain realised on the shares sold. */
  lemma SellAtMarketRow(stock: Stock, pos: Position, quantity: nat, price: real)
    requires 1 <= quantity <= pos.quantity
    requires stock.lastPrice == Some(price) && price != 0.0
    ensures var left := if pos.quantity == quantity then None else Some(pos.(quantity := pos.quantity - quantity));
            && HeldValue(stock, Some(pos)) - HeldValue(stock, left) == price * quantity as real
            && HeldGain(stock, Some(pos)) - HeldGain(stock, left) == (price - pos.avgPrice) * quantity as real
  {
    var n := pos.quantity as real;
    var q := quantity as real;
    var d := price - pos.avgPrice;
    AtMarketRow(stock, pos, price);
    if pos.quantity != quantity {
      var rest := pos.(quantity := pos.quantity - quantity);
      AtMarketRow(stock, rest, price);
      assert rest.quantity as real == n - q;
      assert price * n - price * (n - q) == price * q;
      assert d * n - d * (n - q) == d * q;
    }
  }

  /** Portfolio-wide sums change only through the traded symbol. */
  lemma TotalsThroughSymbol(catalog: Catalog, p: Portfolio, p': Portfolio, symbol: string)
    requires symbol in catalog
    requires p'.positions - {symbol} == p.positions - {symbol}
    ensures PositionsValue(catalog, p') - PositionsValue(catalog, p)
         == HeldValue(catalog[symbol], Holding(p', symbol)) - HeldValue(catalog[symbol], Holding(p, symbol))
    ensures TotalGain(catalog, p') - TotalGain(catalog, p)
         == HeldGain(catalog[symbol], Holding(p', symbol)) - HeldGain(catalog[symbol], Holding(p, symbol))
  {
    var keys, keys' := p.positions.Keys, p'.positions.Keys;
    assert keys' - {symbol} == (p'.positions - {symbol}).Keys == (p.positions - {symbol}).Keys == keys - {symbol};
    forall x | x in keys && x != symbol
      ensures ValueFn(catalog, p.positions)(x) == ValueFn(catalog, p'.positions)(x)
      ensures GainFn(catalog, p.positions)(x) == GainFn(catalog, p'.positions)(x)
    {
      assert x in keys' by {
        assert x in keys - {symbol};
      }
      assert p.positions[x] == p'.positions[x] by {
        assert p.positions[x] == (p.positions - {symbol})[x];
        assert p'.positions[x] == (p'.positions - {symbol})[x];
      }
      assert ValueOf(catalog, p.positions, x) == ValueOf(catalog, p'.positions, x);
      assert GainOf(catalog, p.positions, x) == GainOf(catalog, p'.positions, x);
    }
    SetSumUpdate(keys, keys', ValueFn(catalog, p.positions), ValueFn(catalog, p'.positions), symbol);
    SetSumUpdate(keys, keys', GainFn(catalog, p.positions), GainFn(catalog, p'.positions), symbol);
  }

  /** Buying at the stock's current (non-zero) price converts cash into
      position value one for one: the total value and the total gain are
      unchanged. */
  lemma BuyAtMarketKeepsTotals(catalog: Catalog, p: Portfolio, symbol: string, quantity: nat, price: real, now: Instant)
    requires quantity >= 1
    requires symbol in catalog && catalog[symbol].lastPrice == Some(price) && price != 0.0
    requires ExecuteBuy(p, symbol, quantity, price, now).Ok?
    ensures var p' := ExecuteBuy(p, symbol, quantity, price, now).value;
            TotalValue(catalog, p') == TotalValue(catalog, p) && TotalGain(catalog, p') == TotalGain(catalog, p)
  {
    var p' := ExecuteBuy(p, symbol, quantity, price, now).value;
    TotalsThroughSymbol(catalog, p, p', symbol);
    BuyAtMarketRow(catalog[symbol], Holding(p, symbol), quantity, price);
    assert Holding(p', symbol) == Some(Blend(Holding(p, symbol), quantity, price));
  }

  /** Selling at the stock's current (non-zero) price converts position
      value into cash one for one: the total value is unchanged and the
      total gain falls by the gain realised, (price - average) times shares. */
  lemma SellAtMarketKeepsValue(catalog: Catalog, p: Portfolio, symbol: string, quantity: nat, price: real, now: Instant)
    requires quantity >= 1
    requires symbol in catalog && catalog[symbol].lastPrice == Some(price) && price != 0.0
    requires ExecuteSell(p, symbol, quantity, price, now).Ok?
    ensures var p' := ExecuteSell(p, symbol, quantity, price, now).value;
            && TotalValue(catalog, p') == TotalValue(catalog, p)
            && TotalGain(catalog, p') == TotalGain(catalog, p) - (price - p.positions[symbol].avgPrice) * quantity as real
  {
    var p' := ExecuteSell(p, symbol, quantity, price, now).value;
    var pos := p.positions[symbol];
    TotalsThroughSymbol(catalog, p, p', symbol);
    SellAtMarketRow(catalog[symbol], pos, quantity, price);
    if pos.quantity != quantity {
      assert Holding(p', symbol) == Some(pos.(quantity := pos.quantity - quantity));
    }
  }

  /** An order request that goes through at a non-zero price leaves the
      portfolio's total value, measured at the prices it leaves behind,
      unchanged. */
  lemma PlaceOrderKeepsTotalValue(catalog: Catalog, p: Portfolio, data: OrderData, quotes: string -> Quote, now: Instant)
    ensures var out := PlaceOrder(catalog, p, data, quotes, now);
            var sym := Upper(Strip(data.symbol));
            out.result.Ok? && out.catalog[sym].lastPrice.value != 0.0 ==>
              TotalValue(out.catalog, out.result.value) == TotalValue(out.catalog, p)
  {
    var out := PlaceOrder(catalog, p, data, quotes, now);
    var cleaned := CleanOrder(data);
    if cleaned.Ok? {
      var order := cleaned.value;
      var sym := Upper(order.symbol);
      var priced := PriceOrder(catalog, sym, quotes, now);
      if priced.price.Ok? && out.result.Ok? && out.catalog[sym].lastPrice.value != 0.0 {
        var price := priced.price.value;
        match order.side
        case Buy => BuyAtMarketKeepsTotals(out.catalog, p, sym, order.quantity, price, now);
        case Sell => SellAtMarketKeepsValue(out.catalog, p, sym, order.quantity, price, now);
      }
    }
  }

  /** A cash operation moves the total value by exactly the cash it moves. */
  lemma CashOperationMovesTotalValue(catalog: Catalog, p: Portfolio, data: CashOperationData, now: Instant)
    ensures var r := PerformCashOperation(p, data, now);
            r.Ok? ==>
              TotalValue(catalog, r.value) == TotalValue(catalog, p) + CashFlow(r.value.cashOperations[|p.cashOperations|])
  {
  }
}
